=== FILE: README.md ===
# out_goes in Dafny

A model of the core of `out_goes`, a fluent-bit output plugin written in Go (`main.go`)
that ships log records to an Elasticsearch bulk endpoint. The model covers:

- **initialisation** (`FLBPluginInit`): the sink URL, the index template with its
  placeholders parsed by the pattern `{([a-zA-Z_0-9#]*)}`, and the numeric settings
  `bulksize`, `timeout` and `debug` with their defaults and error path;
- **record normalisation** (`decodeRecord`): a raw msgpack map becomes a string-keyed
  record, with byte slices turned into strings and nested maps decoded recursively;
- **index resolution** (`getIndex`): each parsed field replaces the first remaining
  occurrence of its placeholder with a value from the record; timestamp fields become
  dates; the result is lowercased;
- **one flush** (`FLBPluginFlushCtx`): records are decoded, named, grouped by index name
  in arrival order, and cut into batches of at most `bulkSize` records;
- **one bulk request** (`flushDataToElastic`): the body pairs the action line with the
  JSON document of each record that encodes, and an empty body sends nothing.

Modules, one per file:

| file | module | what it holds |
|---|---|---|
| `wrappers.dfy` | `Wrappers` | `Option`, `Result`, and the values present in a sequence of options |
| `text.dfy` | `Text` | these pieces of Go's `strings`, `strconv` and `fmt`: `ToLower`, `HasSuffix`, `Index`, `Replace(…, 1)`, `%d` and `%0Nd` |
| `template.dfy` | `Template` | the placeholder scan and `indexField` parsing |
| `dates.dfy` | `Dates` | the two date formats, the host timestamp, the `uint64` to `int64` conversion |
| `config.dfy` | `Config` | `Ctx` and initialisation |
| `records.dfy` | `Records` | raw and decoded records, `decodeRecord` |
| `index_name.dfy` | `IndexName` | `getIndex`, with positional substitution as its reference |
| `batches.dfy` | `Batches` | grouping by name and the batch-slicing loop |
| `bulk.dfy` | `Bulk` | the bulk body, its read-back, and the request |
| `flush.dfy` | `Flush` | the flush callback end to end |

Go's `time` package is the `Clock` parameter:
- `parseRfc3339` stands for `time.Parse(time.RFC3339, ·)`;
- `localDate` gives the local date of `time.Unix(sec, 0)`;
- `now` is the date of `time.Now()`, read once for the whole flush (see "Left out").

The JSON encoder is the `Encoder` parameter. It returns the encoded text, or `None` when
`Encode` fails.

## Notes on the code

Each point below is behaviour of the code a caller might not expect. The model follows
the code.

- **Missing numeric setting.** A missing `bulksize`, `timeout` or `debug` key is not
  defaulted. `strconv.Atoi("")` fails, so initialisation returns `FLB_ERROR`
  (main.go:90-94, 100-104, 110-114). Defaults apply only to parsed values: a value `<= 0`
  for `bulksize` or `timeout`, or a `debug` outside 0..2.
- **Action line.** The action line is written as `{ "index":{} }`, with spaces
  (main.go:272).
- **Blank line after each document.** `json.Encoder` already ends each document with a line
  break, and the loop adds another (main.go:290-291). So every document is followed by an
  empty line.
- **Substitution is not strictly positional.** Each placeholder is replaced by searching
  the partly substituted name for its text (main.go:260). A record value that contains a
  later placeholder's text is therefore itself replaced.
  - `IndexName.ValueCanCaptureLaterPlaceholder` exhibits this: `a` = `{b}` and `b` = `B`
    with the template `{a}-{b}` resolve to `b-{b}`.
  - `IndexName.InjectPositional` shows that in-place substitution gives `{b}-b`.
  - `IndexName.GetIndexIsPositional` proves the two agree whenever every `{` of the
    template opens a placeholder and no value contains a `{`.
- **`getIndex` never fails.** Its error result is always `nil` (main.go:264), so it is a
  total function here. The `err != nil` branch of the flush loop (main.go:156-159) cannot
  be taken.
- **Dead checks.**
  - The guard `len(list) == 2` (main.go:73) always holds: the pattern has exactly one
    group.
  - The `len(list) == 0` skip (main.go:169-171) cannot fire: a group exists only once a
    record has been appended to it. `Batches.Plan` proves every group non-empty.

## Model

| member | source | states |
|---|---|---|
| Text.ToLower | main.go:264 | the result has the input's length; every ASCII upper-case letter becomes its lower-case letter (32 code points on), every other character is kept, and no upper-case letter remains |
| Text.ToLowerIdempotent | main.go:263-264 | lowercasing an index name a second time changes nothing |
| Text.HasSuffix | main.go:76 | true exactly when the name is some string followed by `#timestamp` |
| Text.IndexFrom | main.go:260 | the result is an occurrence of the pattern at or after the start, and no earlier position holds one; `None` when no position does |
| Text.ReplaceFirst | main.go:260 | with no occurrence the text is unchanged; otherwise the leftmost occurrence, and only it, becomes the new text |
| Text.ReplaceFirstAfter | main.go:260 | when the placeholder's `{` does not occur before it, `Replace(…, 1)` replaces exactly that occurrence and keeps both sides |
| Text.ParseDigits | main.go:255 | the digits `%d` writes for a natural number read back as that number |
| Text.ParseZeroPad | main.go:240 | `%0Nd` padding does not change the value the digits denote |
| Text.ParseZeroPadded | main.go:240 | the text `%0Nd` writes, and so the text `%d` writes, reads back as the number written, a negative one's sign included, and holds no `.` |
| Text.ZeroPadAddsDigits | main.go:240 | `%0Nd` never writes less than `%d`; it writes more exactly when the number lies strictly between -10^(N-2) and 10^(N-1), and the same text otherwise |
| Text.ZeroPadShape | main.go:240 | padding only puts `0`s in front of the digits |
| Template.NameEnd | main.go:28 | stops at the first character outside `[a-zA-Z_0-9#]`: every character before it is a name character |
| Template.MatchAt | main.go:28 | a match at `i` is a `{`, a run of name characters, and a `}` inside the template; its text is `{` + its captured name + `}` |
| Template.PlaceholderIsMatch | main.go:28 | every placeholder that starts at a position is the match found there, and it ends where the placeholder ends |
| Template.NoPlaceholderInsideMatch | main.go:28 | no placeholder starts strictly inside a match, so the scan may resume after a match without missing one |
| Template.ScanFrom | main.go:72 | the matches found from a position lie in the template, are in increasing order without overlap, and every placeholder starting at or after that position is one of them |
| Template.ScanSkips | main.go:72 | text without a `{` contributes no match |
| Template.ToField | main.go:73-85 | the field replaces the whole match text; a name ending in `#timestamp` gives a timestamp field named by what precedes the suffix; any other name is kept as a plain field |
| Template.ParseTemplate | main.go:72-87 | one field per match, in the order the matches occur in the template |
| Template.ParseExample | main.go:72-87 | `logs-{service}-{ts#timestamp}` parses to the plain field `service` followed by the timestamp field `ts` |
| Config.PositiveOr | main.go:95-97 | a non-positive setting becomes its default; a positive one is kept; the result is positive |
| Config.DebugLevel | main.go:115-117 | a debug level outside 0..2 becomes 0, one inside is kept |
| Config.BaseUrl | main.go:63-68 | the sink URL is `http://<addr>/`, with `localhost:9200` when `Addr` is unset |
| Config.Init | main.go:63-117 | fails exactly when a numeric key does not parse, naming the first in the order bulksize, timeout, debug; on success the context is valid, keeps the template and parsed fields, and holds each setting or its default (5000, 5, 0) |
| Config.InitReproducesValid | main.go:89-117 | configuring from the values of a valid context reproduces that context, so defaulting is a projection |
| Config.InitIdempotent | main.go:89-117 | re-configuring from a configured instance's own values gives the same instance |
| Flush.InitStatus | main.go:89-126 | initialisation answers `FLB_ERROR` exactly when one of the numeric keys does not parse |
| Records.BytesToString | main.go:208-209 | a byte slice becomes a string of the same length, one character per byte value |
| Records.DecodeValue | main.go:207-217 | succeeds exactly when every key at every depth is a string; a failure names the type of a key that occurs inside; bytes become text, strings stay text, other values pass through; a nested map keeps exactly its string keys, each holding the decoded value of the last entry that assigned it |
| Records.DecodeEntries | main.go:201-218 | the loop over the first `n` entries succeeds exactly when all of them are well keyed, and its record has exactly their string keys |
| Records.DecodeEntriesValues | main.go:201-218 | each key holds the decoded value of the last entry that assigned it |
| Records.DecodeRecord | main.go:197-221 | succeeds exactly when every key at every depth is a string, fails naming a key type present in the record otherwise, and keeps exactly the record's keys |
| Records.DecodeRecordValues | main.go:197-221 | with distinct keys, every key maps to its own entry's decoded value |
| Dates.HostDate | main.go:243-253 | the fallback date is the host time's own date for an `FLBTime`; for a `uint64` count, the local date of that many seconds when below 2^63 and of the count minus 2^64 otherwise; the current date for any other value |
| Dates.ToInt64 | main.go:247-248 | `int64(t)` lies in the signed 64-bit range, is congruent to `t` modulo 2^64, and equals `t` below 2^63 |
| Dates.ReadPaddedDate | main.go:240 | a `%04d.%02d.%02d` date reads back as the date it was written from, for every year, month and day, a negative one's sign included |
| Dates.ReadUnpaddedDate | main.go:255 | a `%d.%d.%d` date reads back as the date it was written from, for every year, month and day, a negative one's sign included |
| Dates.PaddedDateShape | main.go:240 | for a four-digit year, month and day, the padded date is ten characters: digits with dots at positions 4 and 7 |
| Dates.PaddingAsymmetry | main.go:238-256 | the record-date format is never shorter than the host-date format; it is strictly longer, hence different, exactly when padding adds a digit (a year from -99 to 999, or a month or day from 0 to 9, since `%04d` counts the sign in the width), and writes the same text otherwise |
| Dates.FormatsAgreeOnDate | main.go:238-256 | for every date, the two formats name the same date: both read back to it |
| IndexName.Lookup | main.go:230-233 | a non-empty string value under the field name is used; a missing, non-string or empty value falls back to the field name; the result is empty only for an empty name |
| IndexName.FieldValue | main.go:230-256 | a plain field contributes its looked-up value; a timestamp field contributes the padded date when the value parses as RFC 3339, and the unpadded host or current date otherwise |
| IndexName.TimestampFieldDate | main.go:237-256 | the text a timestamp field contributes reads back as the record's own date when it parses, and as the host date otherwise, whatever the date's sign |
| IndexName.MissingValueFallsBack | main.go:229-233 | a plain field without a usable value is replaced by its own name; a timestamp field without one, whose name does not parse as a date, falls back to the host date |
| IndexName.ReplaceEach | main.go:228-261 | no fields leave the name unchanged; a field whose placeholder text does not occur changes nothing; fields whose values equal their own placeholder text leave the name as it was |
| IndexName.GetIndex | main.go:224-265 | the index name contains no upper-case letter, so lowercasing it again changes nothing; a template without fields resolves to its own lowercasing |
| IndexName.ReplaceEachIsSplice | main.go:228-261 | the sequential first-occurrence replacements agree with in-place substitution of each match by its value, provided no value and no text outside the matches contains a `{` |
| IndexName.GetIndexIsPositional | main.go:224-265 | when every `{` of the template opens a placeholder and no value contains a `{`, the index name is the lowercased template with each placeholder replaced in place by its own field's value |
| IndexName.ResolveExample | main.go:224-265 | `logs-{service}-{ts#timestamp}` with `service` = `Auth` and an RFC 3339 stamp of 5 March 2024 resolves to `logs-auth-2024.03.05` |
| IndexName.ResolveFallbackExample | main.go:237-256 | with an unparsable `ts` and a host date of 5 March 2024 the same template resolves to `logs-auth-2024.3.5`, unpadded |
| IndexName.ValueCanCaptureLaterPlaceholder | main.go:228-261 | a value holding a later placeholder's text is reached by that placeholder's replacement: `{a}-{b}` with `a` = `{b}`, `b` = `B` gives `b-{b}` |
| IndexName.InjectPositional | main.go:228-261 | positional substitution of the same record gives `{b}-b`, so the sequential result differs from it |
| Batches.Chunks | main.go:174-182 | the batches laid end to end give the group back; none is empty or larger than the batch size, and all but the last are full |
| Batches.ChunkCount | main.go:174 | a group of `n` records is sent as `ceil(n / bulkSize)` batches |
| Batches.ChunksAtBoundary | main.go:174-182 | exactly `bulkSize` records go out as one batch; `bulkSize + 1` records as a full batch followed by a batch holding the last record |
| Batches.SliceBatches | main.go:174-182 | the Go loop over `i += bulkSize` produces exactly `Chunks`: their concatenation is the group and each batch has 1 to `bulkSize` records |
| Batches.Group | main.go:137-163 | a group exists exactly for the names some record carries; it holds that name's records in arrival order and is never empty |
| Batches.SelectKeeps | main.go:161-162 | every record is in the group of its own name |
| Batches.SelectComesFrom | main.go:161-162 | every record in a group arrived under that group's name |
| Batches.Plan | main.go:161-182 | the names with batches are exactly the names that occur; each name's batches are the chunks of its records in arrival order, and there is at least one |
| Batches.PlanKeys | main.go:168 | the names with batches are the names the records carry |
| Bulk.Encoded | main.go:280-287 | every record that encodes contributes its document, every document comes from some record, and there is none exactly when no record encodes |
| Bulk.EncodedAppend | main.go:280-291 | documents keep record order: two runs of records give the first run's documents followed by the second's |
| Bulk.EncodedOne | main.go:281-287 | a single record gives its document when it encodes and nothing when encoding fails |
| Bulk.BuildBody | main.go:272-292 | the loop writes, for each record that encodes, the action line, the document and a line break; the body is empty exactly when no record encodes |
| Bulk.OneRecordBody | main.go:272-292 | a record encoded as `{}` gives the action line, the document and an empty line |
| Bulk.ParseFrames | main.go:289-291 | a body of frames cut at line breaks reads back as its documents |
| Bulk.BodyRoundTrip | main.go:272-292 | when the encoder writes one JSON line per record, the body reads back as the documents of the records that encode, in order |
| Bulk.Dispatch | main.go:294-318 | no request exactly when no record encodes; otherwise a JSON `POST` of the non-empty body to `<url><index>/_bulk` with the instance timeout |
| Bulk.DispatchCarriesDocuments | main.go:294-307 | a request that is sent carries at least one document, and its body reads back as the encoded records |
| Flush.Name | main.go:147-162 | a record that does not decode is skipped; one that does is paired with its index name, the lower-case result of `getIndex` on that record and the entry's timestamp |
| Flush.Prepare | main.go:141-163 | at most one named record per input record, each with a lower-case name |
| Flush.PrepareCons | main.go:141-162 | the flush loop names the chunk entry by entry: the first entry's named record, if any, comes before all the others' |
| Flush.PrepareOrigin | main.go:147-162 | every named record is the decoding of some input record, named from that record and its timestamp |
| Flush.PrepareAppend | main.go:141-163 | naming a chunk in two parts gives the two results laid end to end |
| Flush.PrepareKeepsAll | main.go:147-152 | no record is skipped exactly when every record decodes |
| Flush.FlushPlan | main.go:137-186 | the names with batches are exactly the lower-case names of the decoded records; each name's batches are the bulk-size chunks of its records in arrival order |
| Flush.RecordReachesItsIndex | main.go:155-182 | every decoded record lands in a batch of its own index name |
| Flush.BatchedRecordCameFromChunk | main.go:147-182 | every batched record was decoded from the chunk and named after its own fields and timestamp |
| Flush.Requests | main.go:174-182 | each batch whose dispatch yields a request has that request sent, every request sent is some batch's dispatch, and each goes to `<url><name>/_bulk` with a non-empty body; at most one per batch |
| Flush.RequestsAppend | main.go:174-182 | requests keep batch order: two runs of batches give the first run's requests followed by the second's |
| Flush.RequestsOne | main.go:174-182 | a single batch yields exactly its own dispatch, or nothing |
| Flush.RequestsAll | main.go:280-296 | when the first record of every batch encodes, every batch is sent, one request each |
| Flush.FlushCtx | main.go:130-189 | the flush always answers `FLB_OK`; exactly the names with batches get requests, and each name gets the requests its batches yield, in batch order |
| Flush.FlushSendsBatch | main.go:137-182 | every batch of a flush that holds a record that encodes is sent, to its name's bulk URL |
| Flush.FlushSendsOnlyBatches | main.go:137-182 | every request of a flush is the dispatch of some batch of its name |
| Flush.TwoIndexesOneRecordPerBatch | main.go:137-182 | with `bulkSize` 1, two records for `a` and one for `b` give two batches for `a` in arrival order and one batch for `b` |

## Left out

- Everything crossing the cgo boundary is out of scope: `FLBPluginRegister`,
  `FLBPluginExit`, the context registry keyed by a random id, and
  `FLBPluginSetContext`/`GetContext`. The flush takes the instance's `Ctx` directly.
- `output.NewDecoder` and `output.GetRecord` are not modelled. They are the host's msgpack
  decoding, which is not part of the plugin. The flush takes the decoded
  `(timestamp, raw map)` pairs as a sequence.
- HTTP transport is not modelled. This covers `fasthttp`, `DoTimeout`, the response and
  transport errors. `Dispatch` builds the request, and nothing is sent.
- Goroutines and the `WaitGroup` are not modelled. The requests of one index are computed
  in batch order, while Go sends them concurrently.
- The order in which Go iterates over the index groups is not modelled, because it is
  unspecified. The flush result is a map from index name to requests.
- Diagnostics and debug printing (`fmt.Println`, `ctx.debug > 0` dumps) are not modelled:
  they have no effect on results.
- Calendar arithmetic, RFC 3339 parsing, time zones and the wall clock are not modelled.
  They come from Go's `time` package through `Clock`.
- JSON encoding is not modelled: `json.Encoder` is the `Encoder` parameter. The body is
  proved to read back only for encoders that produce one line per document.
- Dates.HostDate: the current date is one value, `Clock.now`, for the whole flush. Go
  calls `time.Now()` again each time a timestamp field falls back to it (main.go:252). So
  a flush that crosses midnight can give two such records, or two fields of one record,
  different dates in Go, but always the same date in the model.
- Text.ToLower: only ASCII letters are lowercased. Go's `strings.ToLower` also maps
  non-ASCII upper-case letters, which the model does not.
- Records.BytesToString: it gives one character per byte and does not decode UTF-8. A Go
  string holds UTF-8 bytes, while a model string, including a `RawString` value and the
  template, is a sequence of Unicode characters. So non-ASCII text gets different model
  strings depending on whether it arrives as msgpack bytes or as a msgpack string: the
  bytes `C3 A9` give two characters, the string `é` gives one. Go produces the same index
  name for both; the model does not.
- Records.DecodeRecord: Go iterates a map in an unspecified order, and that order decides
  which bad key is reported. The model takes the entries in any given order. Its contract
  promises only that the failure names the type of some bad key, not which one.
- Records.DecodeRecordValues: it assumes distinct keys, as a Go map has. Non-string and
  non-map values are kept as opaque `Passthrough` values, not converted.

=== FILE: batches.dfy ===
/** Grouping the decoded records of one flush by index name, and cutting each group into
    bulk requests of at most `bulkSize` records. */
module Batches {

  /** The batches laid end to end. */
  function Flatten<T>(xss: seq<seq<T>>): seq<T>
    decreases |xss|
  {
    if xss == [] then [] else xss[0] + Flatten(xss[1..])
  }

  lemma {:induction false} FlattenAppend<T>(a: seq<seq<T>>, b: seq<seq<T>>)
    ensures Flatten(a + b) == Flatten(a) + Flatten(b)
    decreases |a|
  {
    if a == [] {
      assert a + b == b;
    } else {
      assert (a + b)[0] == a[0];
      assert (a + b)[1..] == a[1..] + b;
      FlattenAppend(a[1..], b);
    }
  }

  /** `f` applied to each element, in order. */
  function Each<A, B>(s: seq<A>, f: A -> B): (r: seq<B>)
    ensures |r| == |s|
    ensures forall j :: 0 <= j < |s| ==> r[j] == f(s[j])
  {
    seq(|s|, j requires 0 <= j < |s| => f(s[j]))
  }

  lemma EachAppend<A, B>(a: seq<A>, b: seq<A>, f: A -> B)
    ensures Each(a + b, f) == Each(a, f) + Each(b, f)
  {
    var ab := a + b;
    assert forall j :: 0 <= j < |a| ==> ab[j] == a[j];
    assert forall j :: |a| <= j < |ab| ==> ab[j] == b[j - |a|];
  }

  lemma FlattenThree<T>(x: seq<T>, y: seq<T>, z: seq<T>)
    ensures Flatten([x, y, z]) == x + y + z
  {
    assert [x, y, z][1..] == [y, z] && [y, z][1..] == [z] && [z][1..] == [];
    assert Flatten([z]) == z + Flatten([]);
    assert Flatten([y, z]) == y + Flatten([z]);
  }

  /** Every element of the flattened sequence is an element of one of its parts. */
  lemma {:induction false} FlattenOrigin<T>(xss: seq<seq<T>>, i: nat)
    requires i < |Flatten(xss)|
    ensures exists j, m :: 0 <= j < |xss| && 0 <= m < |xss[j]| && xss[j][m] == Flatten(xss)[i]
    decreases |xss|
  {
    var head, rest := xss[0], Flatten(xss[1..]);
    assert Flatten(xss) == head + rest;
    if i < |head| {
      assert xss[0][i] == Flatten(xss)[i];
    } else {
      FlattenOrigin(xss[1..], i - |head|);
      var j, m :| 0 <= j < |xss[1..]| && 0 <= m < |xss[1..][j]| && xss[1..][j][m] == rest[i - |head|];
      assert xss[j + 1][m] == Flatten(xss)[i];
    }
  }

  /** Parts of at most one element each flatten to no more elements than there are parts,
      and to exactly as many when every part has one. */
  lemma {:induction false} FlattenSingles<T>(xss: seq<seq<T>>)
    requires forall j :: 0 <= j < |xss| ==> |xss[j]| <= 1
    ensures |Flatten(xss)| <= |xss|
    ensures |Flatten(xss)| == |xss| <==> forall j :: 0 <= j < |xss| ==> |xss[j]| == 1
    decreases |xss|
  {
    if xss != [] {
      FlattenSingles(xss[1..]);
      assert forall j :: 1 <= j < |xss| ==> xss[j] == xss[1..][j - 1];
      assert |Flatten(xss)| == |xss[0]| + |Flatten(xss[1..])|;
    }
  }

  /** `(n + size - 1) / size`, the number of batches for `n` records, drops by one when
      `size` records are taken off. */
  lemma CeilStep(n: int, size: int)
    requires size > 0 && n > size
    ensures (n - size + size - 1) / size + 1 == (n + size - 1) / size
  {
    var a := n + size - 1;
    var q := (a - size) / size;
    var r := (a - size) % size;
    assert a - size == q * size + r && 0 <= r < size;
    assert a == (q + 1) * size + r;
    DivUnique(a, size, q + 1, r);
  }

  /** A single batch when there are between 1 and `size` records. */
  lemma CeilOne(n: int, size: int)
    requires 0 < n <= size
    ensures (n + size - 1) / size == 1
  {
    DivUnique(n + size - 1, size, 1, n - 1);
  }

  lemma {:induction false} MulAtLeast(d: int, b: int)
    requires d >= 1 && b > 0
    ensures d * b >= b
    decreases d
  {
    if d > 1 {
      MulAtLeast(d - 1, b);
      assert d * b == (d - 1) * b + b;
    }
  }

  /** Euclidean division has one quotient. */
  lemma DivUnique(a: int, b: int, q: int, r: int)
    requires b > 0 && 0 <= r < b && a == q * b + r
    ensures a / b == q
  {
    var q' := a / b;
    var r' := a % b;
    assert a == q' * b + r';
    assert (q' - q) * b == r - r';
    if q' > q {
      MulAtLeast(q' - q, b);
    } else if q' < q {
      MulAtLeast(q - q', b);
    }
  }

  /** The records cut into consecutive batches: none is empty and every batch but the
      last holds exactly `size` records. */
  function Chunks<T>(xs: seq<T>, size: int): (cs: seq<seq<T>>)
    requires size > 0
    ensures Flatten(cs) == xs
    ensures forall i :: 0 <= i < |cs| ==> 0 < |cs[i]| <= size
    ensures forall i :: 0 <= i < |cs| - 1 ==> |cs[i]| == size
    decreases |xs|
  {
    if |xs| == 0 then []
    else if |xs| <= size then
      assert Flatten([xs]) == xs + Flatten([xs][1..]);
      [xs]
    else
      var rest := Chunks(xs[size..], size);
      ChunksCons(xs[..size], rest);
      [xs[..size]] + rest
  }

  lemma ChunksCons<T>(first: seq<T>, rest: seq<seq<T>>)
    ensures ([first] + rest)[0] == first && ([first] + rest)[1..] == rest
    ensures Flatten([first] + rest) == first + Flatten(rest)
  {
    assert ([first] + rest)[1..] == rest;
  }

  /** There are `ceil(|xs| / size)` batches. */
  lemma {:induction false} ChunkCount<T>(xs: seq<T>, size: int)
    requires size > 0
    ensures |Chunks(xs, size)| == (|xs| + size - 1) / size
    decreases |xs|
  {
    if |xs| == 0 {
      DivUnique(size - 1, size, 0, size - 1);
    } else if |xs| <= size {
      CeilOne(|xs|, size);
    } else {
      ChunkCount(xs[size..], size);
      CeilStep(|xs|, size);
    }
  }

  /** A group of exactly `size` records goes out as one batch; one more record makes a
      full batch followed by a batch of the last record alone. */
  lemma ChunksAtBoundary<T>(xs: seq<T>, size: int)
    requires size > 0
    ensures |xs| == size ==> Chunks(xs, size) == [xs]
    ensures |xs| == size + 1 ==>
              Chunks(xs, size) == [xs[..size], [xs[size]]] && |Chunks(xs, size)[0]| == size
  {
    if |xs| == size + 1 {
      var rest := xs[size..];
      assert rest == [xs[size]];
      assert Chunks(rest, size) == [rest];
    }
  }

  /** What the flush loop has left to send at position `i`: `list[i..]`, or
      nothing once `i` is past the end. */
  function Remaining<T>(list: seq<T>, i: nat): seq<T> {
    if i < |list| then list[i..] else []
  }

  /** The batch taken at position `i`: the records from `i` on, cut to at most `size`. */
  function Take<T>(list: seq<T>, i: nat, size: int): seq<T>
    requires size > 0 && i <= |list|
  {
    if |list[i..]| > size then list[i..][..size] else list[i..]
  }

  lemma ChunksHead<T>(xs: seq<T>, size: int)
    requires size > 0 && |xs| > 0
    ensures Chunks(xs, size) ==
              [if |xs| > size then xs[..size] else xs] + Chunks(if |xs| > size then xs[size..] else [], size)
  {
  }

  lemma EmptyAppend<T>(a: seq<T>)
    ensures [] + a == a
  {
  }

  lemma AppendAssoc<T>(a: seq<T>, b: seq<T>, c: seq<T>)
    ensures (a + b) + c == a + (b + c)
  {
  }

  /** What remains after the batch taken at `i`. */
  lemma RemainingAfter<T>(list: seq<T>, i: nat, size: int, next: nat)
    requires size > 0 && i < |list| && next == i + size
    ensures Remaining(list, next) == if |list[i..]| > size then list[i..][size..] else []
  {
    if |list[i..]| > size {
      assert list[i..][size..] == list[next..];
    }
  }

  /** The batches `done` sent before position `i`, followed by the batches of what
      remains, are all the batches of `list`. */
  ghost predicate SentSoFar<T>(list: seq<T>, size: int, i: nat, done: seq<seq<T>>)
    requires size > 0
  {
    done + Chunks(Remaining(list, i), size) == Chunks(list, size)
  }

  /** One step of the flush loop: the batch taken at `i` is the first batch of what
      remains, and the rest are the batches of what remains after it. */
  lemma ChunksFrom<T>(list: seq<T>, i: nat, size: int, done: seq<seq<T>>, data: seq<T>,
                      next: nat, sent: seq<seq<T>>)
    requires size > 0 && i < |list| && data == Take(list, i, size)
    requires SentSoFar(list, size, i, done)
    requires next == i + size && sent == done + [data]
    ensures SentSoFar(list, size, next, sent)
  {
    var rest := list[i..];
    assert Remaining(list, i) == rest;
    ChunksHead(rest, size);
    RemainingAfter(list, i, size, next);
    var later := Chunks(Remaining(list, next), size);
    assert Chunks(rest, size) == [data] + later;
    AppendAssoc(done, [data], later);
  }

  /** The flush's loop over a group, stepping its position by `bulkSize` from 0 while it
      is inside the list: it sends exactly the batches `Chunks` describes. */
  method SliceBatches<T>(list: seq<T>, bulkSize: int) returns (batches: seq<seq<T>>)
    requires bulkSize > 0
    ensures batches == Chunks(list, bulkSize)
    ensures Flatten(batches) == list
    ensures forall j :: 0 <= j < |batches| ==> 0 < |batches[j]| <= bulkSize
  {
    batches := [];
    var i: nat := 0;
    assert Remaining(list, 0) == list;
    EmptyAppend(Chunks(list, bulkSize));
    assert SentSoFar(list, bulkSize, 0, batches);
    while i < |list|
      invariant SentSoFar(list, bulkSize, i, batches)
      decreases |list| - i
    {
      var data := list[i..];
      if |data| > bulkSize {
        data := data[..bulkSize];
      }
      assert data == Take(list, i, bulkSize);
      ghost var done, at := batches, i;
      batches := batches + [data];
      i := i + bulkSize;
      ChunksFrom(list, at, bulkSize, done, data, i, batches);
    }
    SentAll(list, bulkSize, i, batches);
  }

  lemma SentAll<T>(list: seq<T>, size: int, i: nat, done: seq<seq<T>>)
    requires size > 0 && i >= |list| && SentSoFar(list, size, i, done)
    ensures done == Chunks(list, size)
  {
    assert Remaining(list, i) == [];
    assert Chunks<T>([], size) == [];
    assert done + [] == done;
  }

  /** The values recorded under `name`, in arrival order. */
  function Select<T>(entries: seq<(string, T)>, name: string): seq<T>
    decreases |entries|
  {
    if entries == [] then []
    else (if entries[0].0 == name then [entries[0].1] else []) + Select(entries[1..], name)
  }

  lemma {:induction false} SelectAppend<T>(entries: seq<(string, T)>, e: (string, T), name: string)
    ensures Select(entries + [e], name) ==
              Select(entries, name) + (if e.0 == name then [e.1] else [])
    decreases |entries|
  {
    var last: seq<T> := if e.0 == name then [e.1] else [];
    if entries == [] {
      assert entries + [e] == [e];
      assert Select([e], name) == last + Select([e][1..], name);
      assert last + [] == last;
    } else {
      var first: seq<T> := if entries[0].0 == name then [entries[0].1] else [];
      var rest := entries[1..];
      assert (entries + [e])[0] == entries[0];
      assert (entries + [e])[1..] == rest + [e];
      SelectAppend(rest, e, name);
      assert Select(entries + [e], name) == first + (Select(rest, name) + last);
      AppendAssoc(first, Select(rest, name), last);
    }
  }

  /** A name that no entry carries selects nothing; one that some entry carries selects
      something. */
  lemma {:induction false} SelectEmpty<T>(entries: seq<(string, T)>, name: string)
    ensures Select(entries, name) == [] <==> forall i :: 0 <= i < |entries| ==> entries[i].0 != name
    decreases |entries|
  {
    if entries != [] {
      SelectEmpty(entries[1..], name);
      assert forall i :: 1 <= i < |entries| ==> entries[i] == entries[1..][i - 1];
    }
  }

  /** Appending each entry's value to the list kept for its name, in arrival order: one
      list per name that occurs, holding that name's values in arrival order. */
  function Group<T>(entries: seq<(string, T)>): (g: map<string, seq<T>>)
    ensures forall name :: name in g <==> exists i :: 0 <= i < |entries| && entries[i].0 == name
    ensures forall name :: name in g ==> g[name] == Select(entries, name) && g[name] != []
    decreases |entries|
  {
    if entries == [] then map[]
    else
      var front := entries[..|entries| - 1];
      var e := entries[|entries| - 1];
      var g := Group(front);
      assert entries == front + [e];
      GroupStep(front, e, g);
      g[e.0 := (if e.0 in g then g[e.0] else []) + [e.1]]
  }

  lemma GroupStep<T>(front: seq<(string, T)>, e: (string, T), g: map<string, seq<T>>)
    requires forall name :: name in g <==> exists i :: 0 <= i < |front| && front[i].0 == name
    requires forall name :: name in g ==> g[name] == Select(front, name) && g[name] != []
    ensures var g' := g[e.0 := (if e.0 in g then g[e.0] else []) + [e.1]];
            && (forall name :: name in g' <==> exists i :: 0 <= i < |front + [e]| && (front + [e])[i].0 == name)
            && (forall name :: name in g' ==> g'[name] == Select(front + [e], name) && g'[name] != [])
  {
    var entries := front + [e];
    var g' := g[e.0 := (if e.0 in g then g[e.0] else []) + [e.1]];
    forall name
      ensures name in g' <==> exists i :: 0 <= i < |entries| && entries[i].0 == name
    {
      if name in g {
        var i :| 0 <= i < |front| && front[i].0 == name;
        assert entries[i] == front[i];
      }
      if name == e.0 {
        assert entries[|front|] == e;
      }
      if exists i :: 0 <= i < |entries| && entries[i].0 == name {
        var i :| 0 <= i < |entries| && entries[i].0 == name;
        if i < |front| {
          assert front[i] == entries[i];
        }
      }
    }
    forall name | name in g'
      ensures g'[name] == Select(entries, name) && g'[name] != []
    {
      SelectAppend(front, e, name);
      if name != e.0 {
        assert g'[name] == g[name];
      } else if e.0 !in g {
        SelectEmpty(front, name);
      }
    }
  }

  /** Nothing is lost: every entry's value is among those selected by its own name. */
  lemma {:induction false} SelectKeeps<T>(entries: seq<(string, T)>, i: nat)
    requires i < |entries|
    ensures entries[i].1 in Select(entries, entries[i].0)
    decreases i
  {
    if i > 0 {
      SelectKeeps(entries[1..], i - 1);
      assert entries[1..][i - 1] == entries[i];
    }
  }

  /** Nothing is invented: every selected value comes from an entry carrying the name. */
  lemma {:induction false} SelectComesFrom<T>(entries: seq<(string, T)>, name: string, v: T)
    requires v in Select(entries, name)
    ensures exists i :: 0 <= i < |entries| && entries[i] == (name, v)
    decreases |entries|
  {
    if entries[0] != (name, v) {
      SelectComesFrom(entries[1..], name, v);
      var i :| 0 <= i < |entries[1..]| && entries[1..][i] == (name, v);
      assert entries[i + 1] == (name, v);
    }
  }

  /** The names the entries carry. */
  function Names<T>(entries: seq<(string, T)>): set<string>
    decreases |entries|
  {
    if entries == [] then {} else {entries[0].0} + Names(entries[1..])
  }

  lemma {:induction false} NamesHas<T>(entries: seq<(string, T)>, name: string)
    ensures name in Names(entries) <==> exists i :: 0 <= i < |entries| && entries[i].0 == name
    decreases |entries|
  {
    if entries != [] {
      NamesHas(entries[1..], name);
      if name in Names(entries[1..]) {
        var i :| 0 <= i < |entries[1..]| && entries[1..][i].0 == name;
        assert entries[i + 1].0 == name;
      }
      if exists i :: 0 <= i < |entries| && entries[i].0 == name {
        var i :| 0 <= i < |entries| && entries[i].0 == name;
        if i > 0 {
          assert entries[1..][i - 1].0 == name;
        }
      }
    }
  }

  /** Every name's list cut into batches of at most `size`; a name that occurs has at
      least one batch. */
  function Plan<T>(entries: seq<(string, T)>, size: int): (plan: map<string, seq<seq<T>>>)
    requires size > 0
    ensures forall name :: name in plan <==> exists i :: 0 <= i < |entries| && entries[i].0 == name
    ensures forall name :: name in plan ==> plan[name] == Chunks(Select(entries, name), size)
    ensures forall name :: name in plan ==> plan[name] != []
  {
    var g := Group(entries);
    map name | name in g :: Chunks(g[name], size)
  }

  /** The plan has a key for exactly the names the entries carry. */
  lemma PlanKeys<T>(entries: seq<(string, T)>, size: int)
    requires size > 0
    ensures Plan(entries, size).Keys == Names(entries)
  {
    forall name ensures name in Plan(entries, size) <==> name in Names(entries) {
      NamesHas(entries, name);
    }
  }
}

=== FILE: bulk.dfy ===
/** One bulk request (`flushDataToElastic`): the body pairs an action line with each record
    the JSON encoder accepts, and an empty body sends nothing. */
module Bulk {
  import opened Wrappers
  import opened Text
  import opened Records
  import opened Config

  /** The action line written before every document, without its line break. */
  const HeaderLine: string := "{ \"index\":{} }"

  const Header: string := HeaderLine + "\n"

  /** `json.Encoder.Encode` with HTML escaping off: the document text, which the encoder
      ends with a line break, or `None` when the record cannot be encoded. */
  type Encoder = Record -> Option<string>

  /** What `json.Encoder` produces: one line of text ending in its line break. */
  predicate IsJsonLine(doc: string) {
    |doc| > 0 && doc[|doc| - 1] == '\n' && Lacks(doc[..|doc| - 1], '\n')
  }

  /** The documents of the records that encode, in record order. */
  function Encoded(items: seq<Record>, encode: Encoder): (docs: seq<string>)
    ensures |docs| <= |items|
    ensures docs == [] <==> forall i :: 0 <= i < |items| ==> encode(items[i]).None?
    ensures forall j :: 0 <= j < |docs| ==> exists i :: 0 <= i < |items| && encode(items[i]) == Some(docs[j])
    ensures forall i :: 0 <= i < |items| && encode(items[i]).Some? ==> encode(items[i]).value in docs
  {
    var ds := Encodings(items, encode);
    var docs := Present(ds);
    assert forall i :: 0 <= i < |items| && encode(items[i]).Some? ==> encode(items[i]).value in docs by {
      forall i | 0 <= i < |items| && encode(items[i]).Some? ensures encode(items[i]).value in docs {
        PresentHas(ds, i);
      }
    }
    assert forall j :: 0 <= j < |docs| ==> exists i :: 0 <= i < |items| && encode(items[i]) == Some(docs[j]) by {
      forall j | 0 <= j < |docs| ensures exists i :: 0 <= i < |items| && encode(items[i]) == Some(docs[j]) {
        PresentFrom(ds, j);
      }
    }
    PresentCount(ds);
    docs
  }

  /** What the encoder makes of each record. */
  function Encodings(items: seq<Record>, encode: Encoder): (ds: seq<Option<string>>)
    ensures |ds| == |items|
    ensures forall i :: 0 <= i < |items| ==> ds[i] == encode(items[i])
  {
    seq(|items|, i requires 0 <= i < |items| => encode(items[i]))
  }

  /** Encoding two runs of records gives the first run's documents, then the second's:
      documents keep record order. */
  lemma EncodedAppend(a: seq<Record>, b: seq<Record>, encode: Encoder)
    ensures Encoded(a + b, encode) == Encoded(a, encode) + Encoded(b, encode)
  {
    var da := Encodings(a, encode);
    var db := Encodings(b, encode);
    var dab := Encodings(a + b, encode);
    forall i | 0 <= i < |dab| ensures dab[i] == (da + db)[i] {
      if i < |a| { assert (a + b)[i] == a[i]; } else { assert (a + b)[i] == b[i - |a|]; }
    }
    assert dab == da + db;
    PresentAppend(da, db);
  }

  /** Taking one more record adds its document, if it has one, at the end. */
  lemma EncodedStep(items: seq<Record>, i: nat, next: nat, encode: Encoder)
    requires i < |items| && next == i + 1
    ensures Encoded(items[..next], encode) == Encoded(items[..i], encode) + Some0(encode(items[i]))
  {
    assert items[..next] == items[..i] + [items[i]];
    EncodedAppend(items[..i], [items[i]], encode);
    EncodedOne(items[i], encode);
  }

  /** One record gives its document when it encodes, and nothing otherwise. */
  lemma EncodedOne(rec: Record, encode: Encoder)
    ensures Encoded([rec], encode) == Some0(encode(rec))
  {
    var ds := Encodings([rec], encode);
    assert ds == [encode(rec)];
    assert ds[1..] == [];
  }

  /** The text one document contributes: the action line, the document, a line break. */
  function Frame(doc: string): string {
    Header + doc + "\n"
  }

  function Frames(docs: seq<string>): string
    decreases |docs|
  {
    if docs == [] then "" else Frame(docs[0]) + Frames(docs[1..])
  }

  lemma {:induction false} FramesAppend(docs: seq<string>, doc: string)
    ensures Frames(docs + [doc]) == Frames(docs) + Frame(doc)
    decreases |docs|
  {
    if docs == [] {
      assert Frames([doc]) == Frame(doc) + Frames([]);
    } else {
      assert (docs + [doc])[0] == docs[0];
      assert (docs + [doc])[1..] == docs[1..] + [doc];
      FramesAppend(docs[1..], doc);
    }
  }

  lemma FramesEmpty(docs: seq<string>)
    ensures Frames(docs) == "" <==> docs == []
  {
    if docs != [] {
      assert |Frames(docs)| >= |Header|;
    }
  }

  /** The request body: one frame per document that encodes. */
  function Body(items: seq<Record>, encode: Encoder): string {
    Frames(Encoded(items, encode))
  }

  /** The loop of `flushDataToElastic`: a record the encoder rejects is skipped; every
      other adds the action line, the document and a line break. The body is empty
      exactly when no record encodes. */
  method BuildBody(items: seq<Record>, encode: Encoder) returns (body: string)
    ensures body == Body(items, encode)
    ensures body == "" <==> forall i :: 0 <= i < |items| ==> encode(items[i]).None?
  {
    body := "";
    var i := 0;
    while i < |items|
      invariant 0 <= i <= |items|
      invariant body == Frames(Encoded(items[..i], encode))
    {
      var doc := encode(items[i]);
      ghost var at, before := i, body;
      if doc.Some? {
        body := body + Header + doc.value + "\n";
      }
      i := i + 1;
      BodyStep(items, at, i, before, body, encode);
    }
    assert items[..i] == items;
    FramesEmpty(Encoded(items, encode));
  }

  /** One turn of the body loop: the record at `at` adds its frame when it encodes. */
  lemma BodyStep(items: seq<Record>, at: nat, next: nat, before: string, after: string, encode: Encoder)
    requires at < |items| && next == at + 1
    requires before == Frames(Encoded(items[..at], encode))
    requires after == if encode(items[at]).Some? then before + Header + encode(items[at]).value + "\n" else before
    ensures after == Frames(Encoded(items[..next], encode))
  {
    var docs := Encoded(items[..at], encode);
    EncodedStep(items, at, next, encode);
    match encode(items[at])
    case None =>
      assert Encoded(items[..next], encode) == docs;
    case Some(doc) =>
      FrameStep(docs, doc, before, after);
      assert Encoded(items[..next], encode) == docs + [doc];
  }

  lemma FrameStep(docs: seq<string>, doc: string, before: string, after: string)
    requires before == Frames(docs) && after == before + Header + doc + "\n"
    ensures after == Frames(docs + [doc])
  {
    FramesAppend(docs, doc);
    assert after == before + Frame(doc);
  }

  /** A record encoded as `{}` gives the action line, the document and an empty line. */
  lemma OneRecordBody(rec: Record, encode: Encoder)
    requires encode(rec) == Some("{}\n")
    ensures Body([rec], encode) == "{ \"index\":{} }\n{}\n\n"
  {
    EncodedOne(rec, encode);
    assert Encoded([rec], encode) == ["{}\n"];
    assert Frames(["{}\n"]) == Frame("{}\n") + Frames([]);
  }

  // ---------------------------------------------------------------------------
  // Reading a body back
  // ---------------------------------------------------------------------------

  /** The documents of a body cut into lines: each frame is the action line, the
      document's line and an empty line, and the final line break leaves one empty line. */
  function ParseLines(lines: seq<string>): Option<seq<string>>
    decreases |lines|
  {
    if lines == [""] then Some([])
    else if |lines| >= 4 && lines[0] == HeaderLine && lines[2] == "" then
      match ParseLines(lines[3..])
      case None => None
      case Some(rest) => Some([lines[1] + "\n"] + rest)
    else None
  }

  /** The documents of a bulk body, or `None` when it is not made of frames. */
  function ParseBody(body: string): Option<seq<string>> {
    ParseLines(Split(body, '\n'))
  }

  lemma SplitThreeLines(h: string, l: string, rest: string)
    requires Lacks(h, '\n') && Lacks(l, '\n')
    ensures Split(h + ['\n'] + (l + ['\n'] + ("" + ['\n'] + rest)), '\n') ==
              [h, l, ""] + Split(rest, '\n')
  {
    var tail2 := "" + ['\n'] + rest;
    var tail1 := l + ['\n'] + tail2;
    var x := Split(rest, '\n');
    SplitCons("", '\n', rest);
    var y := Split(tail2, '\n');
    assert y == [""] + x;
    SplitCons(l, '\n', tail2);
    var z := Split(tail1, '\n');
    assert z == [l] + y;
    SplitCons(h, '\n', tail1);
    assert Split(h + ['\n'] + tail1, '\n') == [h] + z;
    ConsThree(h, l, "", x);
  }

  lemma ConsThree<T>(a: T, b: T, c: T, x: seq<T>)
    ensures [a] + ([b] + ([c] + x)) == [a, b, c] + x
  {
    assert [a] + ([b] + ([c] + x)) == [a, b, c] + x by {
      assert |[a] + ([b] + ([c] + x))| == |[a, b, c] + x|;
      forall k | 0 <= k < |[a, b, c] + x|
        ensures ([a] + ([b] + ([c] + x)))[k] == ([a, b, c] + x)[k]
      {
      }
    }
  }

  lemma HeaderLineLacks()
    ensures Lacks(HeaderLine, '\n')
  {
  }

  /** Cutting one frame off the front of a body. */
  lemma SplitFrame(doc: string, rest: string)
    requires IsJsonLine(doc)
    ensures Split(Frame(doc) + rest, '\n') ==
              [HeaderLine, doc[..|doc| - 1], ""] + Split(rest, '\n')
  {
    FrameLayout(doc, rest);
    HeaderLineLacks();
    SplitThreeLines(HeaderLine, doc[..|doc| - 1], rest);
  }

  lemma FrameLayout(doc: string, rest: string)
    requires IsJsonLine(doc)
    ensures Frame(doc) + rest ==
              HeaderLine + ['\n'] + (doc[..|doc| - 1] + ['\n'] + ("" + ['\n'] + rest))
  {
    var l := doc[..|doc| - 1];
    assert doc == l + ['\n'];
    assert Header == HeaderLine + ['\n'];
  }

  /** Reading the body back gives the documents that were framed. */
  lemma {:induction false} ParseFrames(docs: seq<string>)
    requires forall j :: 0 <= j < |docs| ==> IsJsonLine(docs[j])
    ensures ParseBody(Frames(docs)) == Some(docs)
    decreases |docs|
  {
    if docs == [] {
      assert Split("", '\n') == [""];
    } else {
      var doc := docs[0];
      SplitFrame(doc, Frames(docs[1..]));
      ParseFrames(docs[1..]);
      assert Frames(docs) == Frame(doc) + Frames(docs[1..]);
      var lines := Split(Frames(docs), '\n');
      assert lines == [HeaderLine, doc[..|doc| - 1], ""] + Split(Frames(docs[1..]), '\n');
      assert lines[3..] == Split(Frames(docs[1..]), '\n');
      assert ParseLines(lines[3..]) == Some(docs[1..]);
      assert lines[0] == HeaderLine && lines[2] == "" && |lines| >= 4;
      assert doc[..|doc| - 1] + "\n" == doc;
      assert [doc] + docs[1..] == docs;
    }
  }

  /** With an encoder that writes one JSON line per record, the body reads back as the
      documents of the records that encode, in order. */
  lemma BodyRoundTrip(items: seq<Record>, encode: Encoder)
    requires forall i, doc :: 0 <= i < |items| && encode(items[i]) == Some(doc) ==> IsJsonLine(doc)
    ensures ParseBody(Body(items, encode)) == Some(Encoded(items, encode))
  {
    var docs := Encoded(items, encode);
    forall j | 0 <= j < |docs| ensures IsJsonLine(docs[j]) {
      var i :| 0 <= i < |items| && encode(items[i]) == Some(docs[j]);
    }
    ParseFrames(docs);
  }

  // ---------------------------------------------------------------------------
  // The request
  // ---------------------------------------------------------------------------

  /** The fields of the fasthttp request that are set. */
  datatype Request = Request(
    httpMethod: string,
    uri: string,
    contentType: string,
    body: string,
    timeoutSeconds: int)

  /** `flushDataToElastic` for one batch: no request when no record encodes; otherwise a
      POST of the body to `<url><index>/_bulk` as JSON, bounded by the instance timeout. */
  function Dispatch(index: string, batch: seq<Record>, ctx: Ctx, encode: Encoder): (r: Option<Request>)
    ensures r.None? <==> forall i :: 0 <= i < |batch| ==> encode(batch[i]).None?
    ensures r.Some? ==> r.value.httpMethod == "POST" && r.value.contentType == "application/json"
    ensures r.Some? ==> r.value.uri == ctx.url + index + "/_bulk"
    ensures r.Some? ==> r.value.timeoutSeconds == ctx.timeout
    ensures r.Some? ==> r.value.body != "" && r.value.body == Body(batch, encode)
  {
    var body := Body(batch, encode);
    FramesEmpty(Encoded(batch, encode));
    if body == "" then None
    else Some(Request("POST", ctx.url + index + "/_bulk", "application/json", body, ctx.timeout))
  }

  /** A sent request carries, in order, the documents of the batch's records that encode. */
  lemma DispatchCarriesDocuments(index: string, batch: seq<Record>, ctx: Ctx, encode: Encoder)
    requires forall i, doc :: 0 <= i < |batch| && encode(batch[i]) == Some(doc) ==> IsJsonLine(doc)
    requires Dispatch(index, batch, ctx, encode).Some?
    ensures ParseBody(Dispatch(index, batch, ctx, encode).value.body) == Some(Encoded(batch, encode))
    ensures |Encoded(batch, encode)| > 0
  {
    BodyRoundTrip(batch, encode);
  }
}

=== FILE: config.dfy ===
/** Instance initialisation (`FLBPluginInit`): the sink address, the parsed index template
    and the three numeric settings with their defaults. */
module Config {
  import opened Wrappers
  import opened Template

  const DefaultAddr: string := "localhost:9200"
  const DefaultBulkSize: int := 5000
  const DefaultTimeout: int := 5

  /** The configuration keys as fluent-bit returns them. A numeric key holds `None` when
      `strconv.Atoi` rejects its text, which includes a key that is not set at all. */
  datatype Settings = Settings(
    addr: string,
    index: string,
    bulkSize: Option<int>,
    timeout: Option<int>,
    debug: Option<int>)

  /** Go's `Ctx`: one per configured instance, read-only once built. */
  datatype Ctx = Ctx(
    url: string,
    index: string,
    parsedIndex: seq<IndexField>,
    bulkSize: int,
    timeout: int,
    debug: int)
  {
    /** What every context built by `Init` satisfies. */
    predicate Valid() {
      && bulkSize > 0
      && timeout > 0
      && 0 <= debug <= 2
      && parsedIndex == ParseTemplate(index)
    }
  }

  /** `FLB_ERROR` from initialisation, naming the key whose value did not parse. */
  datatype ConfigError = Unparsable(key: string)

  /** A non-positive setting is replaced by its default. */
  function PositiveOr(v: int, default: int): (r: int)
    requires default > 0
    ensures r > 0
    ensures v > 0 ==> r == v
    ensures v <= 0 ==> r == default
  {
    if v <= 0 then default else v
  }

  /** A debug level outside 0..2 becomes 0. */
  function DebugLevel(v: int): (r: int)
    ensures 0 <= r <= 2
    ensures 0 <= v <= 2 ==> r == v
    ensures v < 0 || v > 2 ==> r == 0
  {
    if v < 0 || v > 2 then 0 else v
  }

  /** The base URL of the sink, `http://<addr>/`, with the default address when unset. */
  function BaseUrl(addr: string): (r: string)
    ensures addr == "" ==> r == "http://localhost:9200/"
    ensures |r| > 8 && r[..7] == "http://" && r[|r| - 1] == '/'
    ensures r[7..|r| - 1] == (if addr == "" then DefaultAddr else addr)
  {
    "http://" + (if addr == "" then DefaultAddr else addr) + "/"
  }

  /** `FLBPluginInit`: the numeric keys are read in the order bulksize, timeout, debug and
      the first one that does not parse fails initialisation; otherwise the context holds
      the template, its parsed fields and the defaulted settings. */
  function Init(s: Settings): (r: Result<Ctx, ConfigError>)
    ensures r.Success? <==> s.bulkSize.Some? && s.timeout.Some? && s.debug.Some?
    ensures s.bulkSize.None? ==> r == Failure(Unparsable("bulksize"))
    ensures s.bulkSize.Some? && s.timeout.None? ==> r == Failure(Unparsable("timeout"))
    ensures s.bulkSize.Some? && s.timeout.Some? && s.debug.None? ==> r == Failure(Unparsable("debug"))
    ensures r.Success? ==> r.value.Valid()
    ensures r.Success? ==> r.value.index == s.index && r.value.url == BaseUrl(s.addr)
    ensures r.Success? && s.bulkSize.value > 0 ==> r.value.bulkSize == s.bulkSize.value
    ensures r.Success? && s.bulkSize.value <= 0 ==> r.value.bulkSize == DefaultBulkSize
    ensures r.Success? && s.timeout.value > 0 ==> r.value.timeout == s.timeout.value
    ensures r.Success? && s.timeout.value <= 0 ==> r.value.timeout == DefaultTimeout
    ensures r.Success? && 0 <= s.debug.value <= 2 ==> r.value.debug == s.debug.value
    ensures r.Success? && (s.debug.value < 0 || s.debug.value > 2) ==> r.value.debug == 0
  {
    var parsed := ParseTemplate(s.index);
    match s.bulkSize
    case None => Failure(Unparsable("bulksize"))
    case Some(b) =>
      match s.timeout
      case None => Failure(Unparsable("timeout"))
      case Some(t) =>
        match s.debug
        case None => Failure(Unparsable("debug"))
        case Some(d) =>
          Success(Ctx(BaseUrl(s.addr), s.index, parsed,
                      PositiveOr(b, DefaultBulkSize), PositiveOr(t, DefaultTimeout), DebugLevel(d)))
  }

  /** The settings a context would be configured from. */
  function SettingsOf(addr: string, c: Ctx): Settings {
    Settings(addr, c.index, Some(c.bulkSize), Some(c.timeout), Some(c.debug))
  }

  /** Defaulting is a projection: configuring an instance again from the values of a valid
      context reproduces that context. */
  lemma InitReproducesValid(addr: string, c: Ctx)
    requires c.Valid() && c.url == BaseUrl(addr)
    ensures Init(SettingsOf(addr, c)) == Success(c)
  {
  }

  /** Every successfully configured instance is a fixed point of re-configuration. */
  lemma InitIdempotent(s: Settings, addr: string)
    requires Init(s).Success? && BaseUrl(addr) == BaseUrl(s.addr)
    ensures Init(SettingsOf(addr, Init(s).value)) == Init(s)
  {
    InitReproducesValid(addr, Init(s).value);
  }
}

=== FILE: dates.dfy ===
/** Dates as the plugin renders them into index names, and the host timestamp that the
    fallback branch reads. Calendar arithmetic, RFC 3339 parsing and the wall clock belong
    to Go's `time` package and are supplied through `Clock`. */
module Dates {
  import opened Wrappers
  import opened Text

  /** The year, month and day a `time.Time` reports. */
  datatype Date = Date(year: int, month: int, day: int)

  const TwoTo63: int := 0x8000_0000_0000_0000
  const TwoTo64: int := 0x1_0000_0000_0000_0000

  type Uint64 = n: int | 0 <= n < TwoTo64

  /** The timestamp fluent-bit hands over with each record: an `output.FLBTime`, a bare
      `uint64` count of seconds, or anything else. */
  datatype HostTime = FLBTime(date: Date) | Unix(seconds: Uint64) | Other

  /** The parts of Go's `time` package the index resolver calls:
      `parseRfc3339` is `time.Parse(time.RFC3339, ·)` (None on error), `localDate` is the
      date of `time.Unix(sec, 0)` in the process's zone, and `now` is the date of
      `time.Now()`, one value for a whole flush. */
  datatype Clock = Clock(parseRfc3339: string -> Option<Date>, localDate: int -> Date, now: Date)

  /** Go's conversion `int64(t)` of a `uint64`: values from 2^63 on wrap to negatives. */
  function ToInt64(n: Uint64): (r: int)
    ensures -TwoTo63 <= r < TwoTo63
    ensures (n - r) % TwoTo64 == 0
    ensures n < TwoTo63 ==> r == n
  {
    if n < TwoTo63 then n else n - TwoTo64
  }

  /** The date the fallback branch uses: the host time itself, the Unix seconds read as a
      signed count, or the current date. */
  function HostDate(ts: HostTime, clock: Clock): (d: Date)
    ensures ts.FLBTime? ==> d == ts.date
    ensures ts.Unix? && ts.seconds < TwoTo63 ==> d == clock.localDate(ts.seconds)
    ensures ts.Unix? && ts.seconds >= TwoTo63 ==> d == clock.localDate(ts.seconds - TwoTo64)
    ensures ts.Other? ==> d == clock.now
  {
    match ts
    case FLBTime(d) => d
    case Unix(n) => clock.localDate(ToInt64(n))
    case Other => clock.now
  }

  /** The `%04d.%02d.%02d` layout: the format for a date read from the record. */
  function PaddedDate(d: Date): string {
    FormatZeroPadded(d.year, 4) + "." + FormatZeroPadded(d.month, 2) + "." + FormatZeroPadded(d.day, 2)
  }

  /** The `%d.%d.%d` layout: the format for the host or current date. */
  function UnpaddedDate(d: Date): string {
    FormatInt(d.year) + "." + FormatInt(d.month) + "." + FormatInt(d.day)
  }

  /** A date written as three dot-separated decimal numbers, padded or not, each with an
      optional '-' as `%d` writes a negative number. */
  function ReadDate(s: string): Option<Date> {
    var parts := Split(s, '.');
    if |parts| == 3 && ParseInt(parts[0]).Some? && ParseInt(parts[1]).Some? && ParseInt(parts[2]).Some? then
      Some(Date(ParseInt(parts[0]).value, ParseInt(parts[1]).value, ParseInt(parts[2]).value))
    else
      None
  }

  predicate NonNegative(d: Date) {
    d.year >= 0 && d.month >= 0 && d.day >= 0
  }

  /** Three dot-free strings joined by dots split back into those strings. */
  lemma SplitThree(a: string, b: string, c: string)
    requires Lacks(a, '.') && Lacks(b, '.') && Lacks(c, '.')
    ensures Split(a + "." + b + "." + c, '.') == [a, b, c]
  {
    assert a + "." + b + "." + c == a + ['.'] + (b + ['.'] + c);
    SplitCons(a, '.', b + ['.'] + c);
    SplitCons(b, '.', c);
    SplitNoSep(c, '.');
  }

  /** Three numbers as `%d` or `%0wd` writes them, joined by dots, read as the date of
      those numbers. */
  lemma ReadJoined(y: int, m: int, dd: int, wy: nat, wm: nat, wd: nat)
    ensures ReadDate(FormatZeroPadded(y, wy) + "." + FormatZeroPadded(m, wm) + "." + FormatZeroPadded(dd, wd))
              == Some(Date(y, m, dd))
  {
    var a, b, c := FormatZeroPadded(y, wy), FormatZeroPadded(m, wm), FormatZeroPadded(dd, wd);
    ParseZeroPadded(y, wy, '.');
    ParseZeroPadded(m, wm, '.');
    ParseZeroPadded(dd, wd, '.');
    SplitThree(a, b, c);
  }

  lemma PaddedDateParts(d: Date)
    requires NonNegative(d)
    ensures PaddedDate(d) ==
              ZeroPad(Digits(d.year), 4) + "." + ZeroPad(Digits(d.month), 2) + "." + ZeroPad(Digits(d.day), 2)
  {
  }

  /** The record-date format reads back as the date it was made from. */
  lemma ReadPaddedDate(d: Date)
    ensures ReadDate(PaddedDate(d)) == Some(d)
  {
    ReadJoined(d.year, d.month, d.day, 4, 2, 2);
  }

  /** The host-date format reads back as the date it was made from. */
  lemma ReadUnpaddedDate(d: Date)
    ensures ReadDate(UnpaddedDate(d)) == Some(d)
  {
    FormatIntUnpadded(d.year);
    FormatIntUnpadded(d.month);
    FormatIntUnpadded(d.day);
    ReadJoined(d.year, d.month, d.day, 0, 0, 0);
  }

  /** A non-negative number below `10^w` zero-padded to width `w` is exactly `w` digits. */
  lemma PaddedWidth(n: nat, w: nat)
    requires w > 0 && n < Pow10(w)
    ensures |FormatZeroPadded(n, w)| == w && AllDigits(FormatZeroPadded(n, w))
  {
    DigitsLength(n, w);
  }

  lemma DottedShape(y: string, m: string, dd: string)
    requires |y| == 4 && |m| == 2 && |dd| == 2
    requires AllDigits(y) && AllDigits(m) && AllDigits(dd)
    ensures var t := y + "." + m + "." + dd;
            |t| == 10 && t[4] == '.' && t[7] == '.'
            && forall i :: 0 <= i < 10 && i != 4 && i != 7 ==> IsDigit(t[i])
  {
    var t := y + "." + m + "." + dd;
    forall i | 0 <= i < 10 && i != 4 && i != 7 ensures IsDigit(t[i]) {
      if i < 4 { assert t[i] == y[i]; }
      else if i < 7 { assert t[i] == m[i - 5]; }
      else { assert t[i] == dd[i - 8]; }
    }
  }

  /** A date with a four-digit year and two-digit month and day is rendered by the
      record-date format as exactly `YYYY.MM.DD`: ten characters, dots at 4 and 7. */
  lemma PaddedDateShape(d: Date)
    requires 0 <= d.year < 10000 && 0 <= d.month < 100 && 0 <= d.day < 100
    ensures |PaddedDate(d)| == 10
    ensures PaddedDate(d)[4] == '.' && PaddedDate(d)[7] == '.'
    ensures forall i :: 0 <= i < 10 && i != 4 && i != 7 ==> IsDigit(PaddedDate(d)[i])
  {
    assert Pow10(2) == 100;
    assert Pow10(4) == 10000;
    PaddedWidth(d.year, 4);
    PaddedWidth(d.month, 2);
    PaddedWidth(d.day, 2);
    DottedShape(FormatZeroPadded(d.year, 4), FormatZeroPadded(d.month, 2), FormatZeroPadded(d.day, 2));
  }

  /** The padded year, month or day is longer than its unpadded form. */
  predicate PaddingAddsDigit(d: Date) {
    -100 < d.year < 1000 || 0 <= d.month < 10 || 0 <= d.day < 10
  }

  /** The record-date format is never shorter than the host-date format. It is strictly
      longer when padding adds a digit: a year from -99 to 999, or a month or day from 0
      to 9 (a negative month or day of one digit already takes two characters). Otherwise
      the two formats write the same text. */
  lemma PaddingAsymmetry(d: Date)
    ensures |PaddedDate(d)| >= |UnpaddedDate(d)|
    ensures PaddingAddsDigit(d) ==> |PaddedDate(d)| > |UnpaddedDate(d)| && PaddedDate(d) != UnpaddedDate(d)
    ensures !PaddingAddsDigit(d) ==> PaddedDate(d) == UnpaddedDate(d)
  {
    assert Pow10(0) == 1 && Pow10(1) == 10;
    assert Pow10(2) == 100 && Pow10(3) == 1000;
    ZeroPadAddsDigits(d.year, 4);
    ZeroPadAddsDigits(d.month, 2);
    ZeroPadAddsDigits(d.day, 2);
  }

  lemma UnpaddedDateParts(d: Date)
    requires NonNegative(d)
    ensures UnpaddedDate(d) == Digits(d.year) + "." + Digits(d.month) + "." + Digits(d.day)
  {
  }

  /** The two formats name the same date, so they differ only in padding. */
  lemma FormatsAgreeOnDate(d: Date)
    ensures ReadDate(PaddedDate(d)) == ReadDate(UnpaddedDate(d)) == Some(d)
  {
    ReadPaddedDate(d);
    ReadUnpaddedDate(d);
  }
}

=== FILE: flush.dfy ===
/** One flush (`FLBPluginFlushCtx`): every record of the chunk is decoded and named, the
    records are grouped by index name in arrival order, and each group is sent in batches
    of at most `bulkSize` records. */
module Flush {
  import opened Wrappers
  import opened Text
  import opened Dates
  import opened Records
  import opened Config
  import opened IndexName
  import opened Batches
  import opened Bulk

  /** The plugin's answer to fluent-bit. */
  datatype Status = FlbOk | FlbError

  /** `FLBPluginInit`'s answer: an error exactly when a numeric key does not parse. */
  function InitStatus(s: Settings): (st: Status)
    ensures st == FlbError <==> s.bulkSize.None? || s.timeout.None? || s.debug.None?
  {
    if Init(s).Success? then FlbOk else FlbError
  }

  /** One record as `output.GetRecord` yields it: its timestamp and its raw map. */
  datatype Entry = Entry(ts: HostTime, raw: seq<(RawKey, Raw)>)

  /** A record that decodes, paired with its index name; one that does not is skipped. */
  function Name(ctx: Ctx, e: Entry, clock: Clock): (out: seq<(string, Record)>)
    ensures out == [] <==> DecodeRecord(e.raw).Failure?
    ensures |out| <= 1
    ensures forall i :: 0 <= i < |out| ==> IsLower(out[i].0) && NamedFrom(ctx, e, clock, out[i])
  {
    match DecodeRecord(e.raw)
    case Failure(_) => []
    case Success(m) => [(GetIndex(m, e.ts, ctx, clock), m)]
  }

  /** What each entry of the chunk yields. */
  function NamedEach(ctx: Ctx, input: seq<Entry>, clock: Clock): (ns: seq<seq<(string, Record)>>)
    ensures |ns| == |input|
    ensures forall j :: 0 <= j < |input| ==> ns[j] == Name(ctx, input[j], clock)
  {
    Each(input, e => Name(ctx, e, clock))
  }

  /** The loop over the chunk: each decodable record, in arrival order, with its index
      name. */
  function Prepare(ctx: Ctx, input: seq<Entry>, clock: Clock): (out: seq<(string, Record)>)
    ensures |out| <= |input|
    ensures forall i :: 0 <= i < |out| ==> IsLower(out[i].0)
  {
    var ns := NamedEach(ctx, input, clock);
    var out := Flatten(ns);
    FlattenSingles(ns);
    assert forall i :: 0 <= i < |out| ==> IsLower(out[i].0) by {
      forall i | 0 <= i < |out| ensures IsLower(out[i].0) {
        FlattenOrigin(ns, i);
      }
    }
    out
  }

  /** Entry `e` decodes to the record of `p`, and `p` is named after that record and the
      entry's timestamp. */
  predicate NamedFrom(ctx: Ctx, e: Entry, clock: Clock, p: (string, Record)) {
    DecodeRecord(e.raw) == Success(p.1) && p.0 == GetIndex(p.1, e.ts, ctx, clock)
  }

  /** Naming goes entry by entry. */
  lemma PrepareCons(ctx: Ctx, input: seq<Entry>, clock: Clock)
    requires input != []
    ensures Prepare(ctx, input, clock) == Name(ctx, input[0], clock) + Prepare(ctx, input[1..], clock)
  {
    var ns := NamedEach(ctx, input, clock);
    assert ns[1..] == NamedEach(ctx, input[1..], clock);
  }

  /** Every named record is the decoding of some entry, named after that entry's own
      record and timestamp. */
  lemma PrepareOrigin(ctx: Ctx, input: seq<Entry>, clock: Clock, i: nat)
    requires i < |Prepare(ctx, input, clock)|
    ensures exists j :: 0 <= j < |input| && NamedFrom(ctx, input[j], clock, Prepare(ctx, input, clock)[i])
  {
    var ns := NamedEach(ctx, input, clock);
    FlattenOrigin(ns, i);
    var j, m :| 0 <= j < |ns| && 0 <= m < |ns[j]| && ns[j][m] == Flatten(ns)[i];
    assert NamedFrom(ctx, input[j], clock, ns[j][m]);
  }

  /** The chunk can be handled in parts: naming is record by record. */
  lemma PrepareAppend(ctx: Ctx, a: seq<Entry>, b: seq<Entry>, clock: Clock)
    ensures Prepare(ctx, a + b, clock) == Prepare(ctx, a, clock) + Prepare(ctx, b, clock)
  {
    var na, nb := NamedEach(ctx, a, clock), NamedEach(ctx, b, clock);
    EachAppend(a, b, e => Name(ctx, e, clock));
    FlattenAppend(na, nb);
  }

  /** Every record decodes exactly when none is skipped. */
  lemma PrepareKeepsAll(ctx: Ctx, input: seq<Entry>, clock: Clock)
    ensures |Prepare(ctx, input, clock)| == |input| <==>
              forall j :: 0 <= j < |input| ==> DecodeRecord(input[j].raw).Success?
  {
    var ns := NamedEach(ctx, input, clock);
    FlattenSingles(ns);
    assert forall j :: 0 <= j < |input| ==> (|ns[j]| == 1 <==> DecodeRecord(input[j].raw).Success?);
  }

  /** Batches per index name: the grouped records cut into `Chunks`. */
  function FlushPlan(ctx: Ctx, input: seq<Entry>, clock: Clock): (plan: map<string, seq<seq<Record>>>)
    requires ctx.Valid()
    ensures forall name :: name in plan <==>
              exists i :: 0 <= i < |Prepare(ctx, input, clock)| && Prepare(ctx, input, clock)[i].0 == name
    ensures forall name :: name in plan ==> IsLower(name)
    ensures forall name :: name in plan ==> plan[name] == Chunks(Select(Prepare(ctx, input, clock), name), ctx.bulkSize)
    ensures forall name :: name in plan ==> plan[name] != []
  {
    var entries := Prepare(ctx, input, clock);
    Plan(entries, ctx.bulkSize)
  }

  /** No decoded record is lost: each lands in a batch of its own index name. */
  lemma RecordReachesItsIndex(ctx: Ctx, input: seq<Entry>, clock: Clock, i: nat)
    requires ctx.Valid() && i < |Prepare(ctx, input, clock)|
    ensures Prepare(ctx, input, clock)[i].0 in FlushPlan(ctx, input, clock)
    ensures Prepare(ctx, input, clock)[i].1 in Flatten(FlushPlan(ctx, input, clock)[Prepare(ctx, input, clock)[i].0])
  {
    var entries := Prepare(ctx, input, clock);
    SelectKeeps(entries, i);
  }

  /** Every batched record was decoded from the chunk and named after its own fields:
      the batches hold nothing that the chunk did not. */
  lemma BatchedRecordCameFromChunk(ctx: Ctx, input: seq<Entry>, clock: Clock, name: string, rec: Record)
    requires ctx.Valid()
    requires name in FlushPlan(ctx, input, clock) && rec in Flatten(FlushPlan(ctx, input, clock)[name])
    ensures exists j :: 0 <= j < |input| && DecodeRecord(input[j].raw) == Success(rec)
                          && GetIndex(rec, input[j].ts, ctx, clock) == name
  {
    var entries := Prepare(ctx, input, clock);
    SelectComesFrom(entries, name, rec);
    var i :| 0 <= i < |entries| && entries[i] == (name, rec);
    PrepareOrigin(ctx, input, clock, i);
  }

  /** What each batch yields: a request, or nothing when no record of it encodes. */
  function Dispatches(name: string, batches: seq<seq<Record>>, ctx: Ctx, encode: Encoder)
    : (ds: seq<Option<Request>>)
    ensures |ds| == |batches|
    ensures forall j :: 0 <= j < |batches| ==> ds[j] == Dispatch(name, batches[j], ctx, encode)
  {
    seq(|batches|, j requires 0 <= j < |batches| => Dispatch(name, batches[j], ctx, encode))
  }

  /** The requests sent for one index name: one per batch with at least one record that
      encodes. Every batch that yields a request has it sent, and every request sent is
      the one some batch yields. */
  function Requests(name: string, batches: seq<seq<Record>>, ctx: Ctx, encode: Encoder): (rs: seq<Request>)
    ensures |rs| <= |batches|
    ensures forall k :: 0 <= k < |rs| ==> rs[k].uri == ctx.url + name + "/_bulk" && rs[k].body != ""
    ensures forall j :: 0 <= j < |batches| && Dispatch(name, batches[j], ctx, encode).Some? ==>
              Dispatch(name, batches[j], ctx, encode).value in rs
    ensures forall k :: 0 <= k < |rs| ==>
              exists j :: 0 <= j < |batches| && Dispatch(name, batches[j], ctx, encode) == Some(rs[k])
  {
    var ds := Dispatches(name, batches, ctx, encode);
    var rs := Present(ds);
    assert forall j :: 0 <= j < |batches| && ds[j].Some? ==> ds[j].value in rs by {
      forall j | 0 <= j < |batches| && ds[j].Some? ensures ds[j].value in rs {
        PresentHas(ds, j);
      }
    }
    assert forall k :: 0 <= k < |rs| ==> exists j :: 0 <= j < |batches| && ds[j] == Some(rs[k]) by {
      forall k | 0 <= k < |rs| ensures exists j :: 0 <= j < |batches| && ds[j] == Some(rs[k]) {
        PresentFrom(ds, k);
      }
    }
    assert forall k :: 0 <= k < |rs| ==> rs[k].uri == ctx.url + name + "/_bulk" && rs[k].body != "" by {
      forall k | 0 <= k < |rs| ensures rs[k].uri == ctx.url + name + "/_bulk" && rs[k].body != "" {
        PresentFrom(ds, k);
        var j :| 0 <= j < |ds| && ds[j] == Some(rs[k]);
      }
    }
    rs
  }

  /** Sending two runs of batches sends the first run's requests, then the second's: the
      requests keep batch order. */
  lemma RequestsAppend(name: string, a: seq<seq<Record>>, b: seq<seq<Record>>, ctx: Ctx, encode: Encoder)
    ensures Requests(name, a + b, ctx, encode) == Requests(name, a, ctx, encode) + Requests(name, b, ctx, encode)
  {
    var da := Dispatches(name, a, ctx, encode);
    var db := Dispatches(name, b, ctx, encode);
    assert Dispatches(name, a + b, ctx, encode) == da + db;
    PresentAppend(da, db);
  }

  /** One batch yields exactly its own dispatch. */
  lemma RequestsOne(name: string, batch: seq<Record>, ctx: Ctx, encode: Encoder)
    ensures Requests(name, [batch], ctx, encode) == Some0(Dispatch(name, batch, ctx, encode))
  {
    var ds := Dispatches(name, [batch], ctx, encode);
    assert ds == [Dispatch(name, batch, ctx, encode)];
    assert ds[1..] == [];
  }

  /** When every record encodes, every batch becomes a request. */
  lemma RequestsAll(name: string, batches: seq<seq<Record>>, ctx: Ctx, encode: Encoder)
    requires forall j :: 0 <= j < |batches| ==> batches[j] != [] && encode(batches[j][0]).Some?
    ensures |Requests(name, batches, ctx, encode)| == |batches|
  {
    var ds := Dispatches(name, batches, ctx, encode);
    forall j | 0 <= j < |ds| ensures ds[j].Some? {
      assert encode(batches[j][0]).Some?;
    }
    PresentCount(ds);
  }

  /** `FLBPluginFlushCtx`: always `FLB_OK`, whatever was skipped or failed to send; each
      index name with batches gets the requests its batches yield, in batch order. */
  function FlushCtx(ctx: Ctx, input: seq<Entry>, clock: Clock, encode: Encoder)
    : (r: (Status, map<string, seq<Request>>))
    requires ctx.Valid()
    ensures r.0 == FlbOk
    ensures r.1.Keys == FlushPlan(ctx, input, clock).Keys
    ensures forall name :: name in r.1 ==> r.1[name] == Requests(name, FlushPlan(ctx, input, clock)[name], ctx, encode)
  {
    var plan := FlushPlan(ctx, input, clock);
    (FlbOk, map name | name in plan :: Requests(name, plan[name], ctx, encode))
  }

  /** Every batch of the flush with a record that encodes is sent, to its name's bulk URL. */
  lemma FlushSendsBatch(ctx: Ctx, input: seq<Entry>, clock: Clock, encode: Encoder, name: string, j: nat)
    requires ctx.Valid()
    requires name in FlushPlan(ctx, input, clock) && j < |FlushPlan(ctx, input, clock)[name]|
    requires exists i :: 0 <= i < |FlushPlan(ctx, input, clock)[name][j]| &&
                         encode(FlushPlan(ctx, input, clock)[name][j][i]).Some?
    ensures Dispatch(name, FlushPlan(ctx, input, clock)[name][j], ctx, encode).Some?
    ensures Dispatch(name, FlushPlan(ctx, input, clock)[name][j], ctx, encode).value in FlushCtx(ctx, input, clock, encode).1[name]
    ensures Dispatch(name, FlushPlan(ctx, input, clock)[name][j], ctx, encode).value.uri == ctx.url + name + "/_bulk"
  {
  }

  /** Every request of the flush is the one some batch of its name yields. */
  lemma FlushSendsOnlyBatches(ctx: Ctx, input: seq<Entry>, clock: Clock, encode: Encoder, name: string, k: nat)
    requires ctx.Valid()
    requires name in FlushCtx(ctx, input, clock, encode).1 && k < |FlushCtx(ctx, input, clock, encode).1[name]|
    ensures exists j :: 0 <= j < |FlushPlan(ctx, input, clock)[name]| &&
              Dispatch(name, FlushPlan(ctx, input, clock)[name][j], ctx, encode) ==
                Some(FlushCtx(ctx, input, clock, encode).1[name][k])
  {
  }

  // ---------------------------------------------------------------------------
  // Scenario
  // ---------------------------------------------------------------------------

  /** Two records for index `a` and one for index `b`, with `bulkSize` 1: `a` is sent as
      two batches in arrival order and `b` as one. */
  lemma TwoIndexesOneRecordPerBatch(ctx: Ctx, e1: Entry, e2: Entry, e3: Entry, clock: Clock,
                                    r1: Record, r2: Record, r3: Record, a: string, b: string)
    requires ctx.Valid() && ctx.bulkSize == 1 && a != b
    requires DecodeRecord(e1.raw) == Success(r1) && GetIndex(r1, e1.ts, ctx, clock) == a
    requires DecodeRecord(e2.raw) == Success(r2) && GetIndex(r2, e2.ts, ctx, clock) == a
    requires DecodeRecord(e3.raw) == Success(r3) && GetIndex(r3, e3.ts, ctx, clock) == b
    ensures FlushPlan(ctx, [e1, e2, e3], clock) == map[a := [[r1], [r2]], b := [[r3]]]
  {
    PrepareThree(ctx, e1, e2, e3, clock, r1, r2, r3, a, b);
    PlanThree(Prepare(ctx, [e1, e2, e3], clock), a, b, r1, r2, r3);
  }

  // ---------------------------------------------------------------------------
  // Proof steps for the scenario, one concrete fact each
  // ---------------------------------------------------------------------------

  lemma PrepareThree(ctx: Ctx, e1: Entry, e2: Entry, e3: Entry, clock: Clock,
                     r1: Record, r2: Record, r3: Record, a: string, b: string)
    requires DecodeRecord(e1.raw) == Success(r1) && GetIndex(r1, e1.ts, ctx, clock) == a
    requires DecodeRecord(e2.raw) == Success(r2) && GetIndex(r2, e2.ts, ctx, clock) == a
    requires DecodeRecord(e3.raw) == Success(r3) && GetIndex(r3, e3.ts, ctx, clock) == b
    ensures Prepare(ctx, [e1, e2, e3], clock) == [(a, r1), (a, r2), (b, r3)]
  {
    var input := [e1, e2, e3];
    NameOf(ctx, e1, clock, r1, a);
    NameOf(ctx, e2, clock, r2, a);
    NameOf(ctx, e3, clock, r3, b);
    NamedThree(ctx, e1, e2, e3, clock);
    FlattenThree([(a, r1)], [(a, r2)], [(b, r3)]);
  }

  lemma NameOf(ctx: Ctx, e: Entry, clock: Clock, r: Record, name: string)
    requires DecodeRecord(e.raw) == Success(r) && GetIndex(r, e.ts, ctx, clock) == name
    ensures Name(ctx, e, clock) == [(name, r)]
  {
  }

  lemma NamedThree(ctx: Ctx, e1: Entry, e2: Entry, e3: Entry, clock: Clock)
    ensures NamedEach(ctx, [e1, e2, e3], clock) ==
              [Name(ctx, e1, clock), Name(ctx, e2, clock), Name(ctx, e3, clock)]
  {
  }

  lemma PlanThreeKeys(entries: seq<(string, Record)>, a: string, b: string, r1: Record, r2: Record, r3: Record)
    requires entries == [(a, r1), (a, r2), (b, r3)]
    ensures Plan(entries, 1).Keys == {a, b}
  {
    PlanKeys(entries, 1);
    NamesThree(entries, a, b, r1, r2, r3);
  }

  lemma NamesThree(entries: seq<(string, Record)>, a: string, b: string, r1: Record, r2: Record, r3: Record)
    requires entries == [(a, r1), (a, r2), (b, r3)]
    ensures Names(entries) == {a, b}
  {
    var rest := entries[1..];
    assert rest == [(a, r2), (b, r3)] && rest[1..] == [(b, r3)] && rest[1..][1..] == [];
    assert Names(rest[1..]) == {b} + Names(rest[1..][1..]);
    assert Names(rest) == {a} + Names(rest[1..]);
    assert Names(entries) == {a} + Names(rest);
  }

  lemma MapOfTwo<V>(m: map<string, V>, a: string, b: string, va: V, vb: V)
    requires m.Keys == {a, b} && a in m && b in m && m[a] == va && m[b] == vb
    ensures m == map[a := va, b := vb]
  {
  }

  lemma PlanThreeValues(entries: seq<(string, Record)>, a: string, b: string, r1: Record, r2: Record, r3: Record)
    requires entries == [(a, r1), (a, r2), (b, r3)] && a != b
    requires a in Plan(entries, 1) && b in Plan(entries, 1)
    ensures Plan(entries, 1)[a] == [[r1], [r2]]
    ensures Plan(entries, 1)[b] == [[r3]]
  {
    SelectThree(entries, a, b, r1, r2, r3);
    ChunksOfOne([r1, r2]);
    ChunksOfOne([r3]);
  }

  lemma PlanThree(entries: seq<(string, Record)>, a: string, b: string, r1: Record, r2: Record, r3: Record)
    requires entries == [(a, r1), (a, r2), (b, r3)] && a != b
    ensures Plan(entries, 1) == map[a := [[r1], [r2]], b := [[r3]]]
  {
    PlanThreeKeys(entries, a, b, r1, r2, r3);
    PlanThreeValues(entries, a, b, r1, r2, r3);
    MapOfTwo(Plan(entries, 1), a, b, [[r1], [r2]], [[r3]]);
  }

  lemma SelectThree(entries: seq<(string, Record)>, a: string, b: string, r1: Record, r2: Record, r3: Record)
    requires entries == [(a, r1), (a, r2), (b, r3)] && a != b
    ensures Select(entries, a) == [r1, r2]
    ensures Select(entries, b) == [r3]
  {
    var e2 := entries[1..];
    var e3 := e2[1..];
    assert e2 == [(a, r2), (b, r3)] && e3 == [(b, r3)] && e3[1..] == [];
    assert Select(e3, a) == [] + Select(e3[1..], a);
    assert Select(e3, b) == [r3] + Select(e3[1..], b);
    assert Select(e2, a) == [r2] + Select(e3, a);
    assert Select(e2, b) == [] + Select(e3, b);
    assert Select(entries, a) == [r1] + Select(e2, a);
    assert Select(entries, b) == [] + Select(e2, b);
  }

  lemma ChunksOfOne(xs: seq<Record>)
    requires |xs| <= 2
    ensures |xs| == 1 ==> Chunks(xs, 1) == [xs]
    ensures |xs| == 2 ==> Chunks(xs, 1) == [[xs[0]], [xs[1]]]
  {
    if |xs| == 2 {
      assert xs[..1] == [xs[0]] && xs[1..] == [xs[1]];
      assert Chunks(xs[1..], 1) == [[xs[1]]];
    }
  }
}

=== FILE: index_name.dfy ===
/** Index resolution (`getIndex`): every parsed template field, in parse order, replaces
    the first remaining occurrence of its placeholder text with a value taken from the
    record; the result is lowercased. */
module IndexName {
  import opened Wrappers
  import opened Text
  import opened Template
  import opened Dates
  import opened Records
  import opened Config

  /** The record's string value under the field name, falling back to the field name
      itself when the key is missing, its value is not a string, or the string is empty. */
  function Lookup(rec: Record, name: string): (v: string)
    ensures name in rec && rec[name].Text? && rec[name].s != "" ==> v == rec[name].s
    ensures !(name in rec && rec[name].Text? && rec[name].s != "") ==> v == name
    ensures v == "" ==> name == ""
  {
    if name in rec && rec[name].Text? && rec[name].s != "" then rec[name].s else name
  }

  /** The text one field contributes. A plain field contributes the looked-up value. A
      timestamp field contributes the looked-up value's date as `%04d.%02d.%02d` when it
      parses as RFC 3339, and otherwise the host or current date as `%d.%d.%d`. */
  function FieldValue(f: IndexField, rec: Record, ts: HostTime, clock: Clock): (v: string)
    ensures !f.isTimestamp ==> v == Lookup(rec, f.fieldName)
    ensures f.isTimestamp && clock.parseRfc3339(Lookup(rec, f.fieldName)).Some? ==>
              v == PaddedDate(clock.parseRfc3339(Lookup(rec, f.fieldName)).value)
    ensures f.isTimestamp && clock.parseRfc3339(Lookup(rec, f.fieldName)).None? ==>
              v == UnpaddedDate(HostDate(ts, clock))
  {
    var value := Lookup(rec, f.fieldName);
    if !f.isTimestamp then value
    else
      match clock.parseRfc3339(value)
      case Some(d) => PaddedDate(d)
      case None => UnpaddedDate(HostDate(ts, clock))
  }

  /** A timestamp field names a date that reads back from the text it contributes: the
      record's own date when its value parses, the host or current date otherwise. */
  lemma TimestampFieldDate(f: IndexField, rec: Record, ts: HostTime, clock: Clock)
    requires f.isTimestamp
    ensures var p := clock.parseRfc3339(Lookup(rec, f.fieldName));
            var d := if p.Some? then p.value else HostDate(ts, clock);
            ReadDate(FieldValue(f, rec, ts, clock)) == Some(d)
  {
    var p := clock.parseRfc3339(Lookup(rec, f.fieldName));
    if p.Some? {
      ReadPaddedDate(p.value);
    } else {
      var h := HostDate(ts, clock);
      ReadUnpaddedDate(h);
    }
  }

  /** A field whose value is missing, not a string, or empty is replaced by its own name
      (a plain field) or falls back to the host date (a timestamp field, unless its own
      name parses as a date). */
  lemma MissingValueFallsBack(f: IndexField, rec: Record, ts: HostTime, clock: Clock)
    requires !(f.fieldName in rec && rec[f.fieldName].Text? && rec[f.fieldName].s != "")
    ensures !f.isTimestamp ==> FieldValue(f, rec, ts, clock) == f.fieldName
    ensures f.isTimestamp && clock.parseRfc3339(f.fieldName).None? ==>
              FieldValue(f, rec, ts, clock) == UnpaddedDate(HostDate(ts, clock))
  {
  }

  /** The (placeholder text, value) pair of every field, in parse order. */
  function Substitutions(fields: seq<IndexField>, rec: Record, ts: HostTime, clock: Clock)
    : (subs: seq<(string, string)>)
    ensures |subs| == |fields|
    ensures forall i :: 0 <= i < |fields| ==>
              subs[i] == (fields[i].replace, FieldValue(fields[i], rec, ts, clock))
  {
    seq(|fields|, i requires 0 <= i < |fields| => (fields[i].replace, FieldValue(fields[i], rec, ts, clock)))
  }

  /** The substitution loop: each pair, in order, replaces the first remaining
      occurrence of its placeholder text in the partly substituted name. */
  function ReplaceEach(s: string, subs: seq<(string, string)>): (r: string)
    ensures subs == [] ==> r == s
    ensures subs != [] && (forall j :: 0 <= j <= |s| ==> !OccursAt(s, subs[0].0, j)) ==>
              r == ReplaceEach(s, subs[1..])
    ensures (forall k :: 0 <= k < |subs| ==> subs[k].1 == subs[k].0) ==> r == s
    decreases |subs|
  {
    if subs == [] then s
    else
      ReplaceFirstSame(s, subs[0].0);
      ReplaceEach(ReplaceFirst(s, subs[0].0, subs[0].1), subs[1..])
  }

  /** Replacing a text by itself changes nothing. */
  lemma ReplaceFirstSame(s: string, t: string)
    ensures ReplaceFirst(s, t, t) == s
  {
    match IndexFrom(s, t, 0)
    case None =>
    case Some(i) =>
      assert s[..i] + t + s[i + |t|..] == s by {
        assert s[i..i + |t|] == t;
        assert s == s[..i] + s[i..i + |t|] + s[i + |t|..];
      }
  }

  lemma ReplaceEachTwo(s: string, a: (string, string), b: (string, string))
    ensures ReplaceEach(s, [a, b]) == ReplaceFirst(ReplaceFirst(s, a.0, a.1), b.0, b.1)
  {
    var once := ReplaceFirst(s, a.0, a.1);
    assert [a, b][0] == a && [a, b][1..] == [b];
    assert ReplaceEach(s, [a, b]) == ReplaceEach(once, [b]);
    assert [b][0] == b && [b][1..] == [];
    assert ReplaceEach(once, [b]) == ReplaceEach(ReplaceFirst(once, b.0, b.1), []);
  }

  /** `getIndex`: never fails; the result is lower-case, hence unchanged by lowercasing
      again, and a template without fields resolves to its own lowercasing. */
  function GetIndex(rec: Record, ts: HostTime, ctx: Ctx, clock: Clock): (name: string)
    ensures IsLower(name)
    ensures ToLower(name) == name
    ensures ctx.parsedIndex == [] ==> name == ToLower(ctx.index)
  {
    var name := ToLower(ReplaceEach(ctx.index, Substitutions(ctx.parsedIndex, rec, ts, clock)));
    LowerFixesLower(name);
    name
  }

  // ---------------------------------------------------------------------------
  // Positional substitution, the reference the sequential replacement is compared with
  // ---------------------------------------------------------------------------

  /** The template with match `k` onwards replaced in place by its value, starting the
      copy at `pos`. */
  function SpliceFrom(s: string, ms: seq<Match>, vs: seq<string>, k: nat, pos: nat): string
    requires |vs| == |ms| && k <= |ms| && pos <= |s|
    requires AllFound(s, ms)
    requires Ordered(ms)
    requires k < |ms| ==> pos <= ms[k].start
    decreases |ms| - k
  {
    if k == |ms| then s[pos..]
    else s[pos..ms[k].start] + vs[k] + SpliceFrom(s, ms, vs, k + 1, ms[k].End())
  }

  /** The template with every match replaced in place by its own value. */
  function Splice(s: string, ms: seq<Match>, vs: seq<string>): string
    requires |vs| == |ms|
    requires AllFound(s, ms)
    requires Ordered(ms)
  {
    SpliceFrom(s, ms, vs, 0, 0)
  }

  /** Every `{` of `s` starts one of the matches. */
  predicate BracesStartMatches(s: string, ms: seq<Match>) {
    forall x :: 0 <= x < |s| && s[x] == '{' ==> exists j :: 0 <= j < |ms| && ms[j].start == x
  }

  function Pairs(ms: seq<Match>, vs: seq<string>): (subs: seq<(string, string)>)
    requires |vs| == |ms|
    ensures |subs| == |ms|
    ensures forall i :: 0 <= i < |ms| ==> subs[i] == (ms[i].text, vs[i])
  {
    seq(|ms|, i requires 0 <= i < |ms| => (ms[i].text, vs[i]))
  }

  /** The matches before `k` end by `pos`, and those from `k` on start no earlier than
      match `k`. */
  lemma OrderedAround(s: string, ms: seq<Match>, k: nat, pos: nat)
    requires AllFound(s, ms)
    requires Ordered(ms) && k < |ms|
    requires k > 0 ==> ms[k - 1].End() <= pos
    ensures forall m :: 0 <= m < k ==> ms[m].End() <= pos
    ensures forall m :: k <= m < |ms| ==> ms[k].start <= ms[m].start
  {
    forall m | 0 <= m < k ensures ms[m].End() <= pos {
      if m < k - 1 {
        assert ms[m].End() <= ms[k - 1].start;
      }
    }
  }

  /** Between the end of match `k-1` and the start of match `k` there is no `{`. */
  lemma NoBraceInGap(s: string, ms: seq<Match>, k: nat, pos: nat)
    requires AllFound(s, ms)
    requires Ordered(ms) && k < |ms| && pos <= ms[k].start
    requires k > 0 ==> ms[k - 1].End() <= pos
    requires BracesStartMatches(s, ms)
    ensures Lacks(s[pos..ms[k].start], '{')
  {
    OrderedAround(s, ms, k, pos);
    assert forall m :: 0 <= m < |ms| ==> ms[m].start < pos || ms[k].start <= ms[m].start by {
      forall m | 0 <= m < |ms| ensures ms[m].start < pos || ms[k].start <= ms[m].start {
        if m < k {
          assert ms[m].start < ms[m].End();
        }
      }
    }
  }

  /** One step of the sequential replacement: with no `{` before match `k`, the first
      occurrence of its text is the match itself. */
  lemma ReplaceStep(s: string, ms: seq<Match>, v: string, k: nat, pos: nat, p: string)
    requires AllFound(s, ms)
    requires k < |ms| && pos <= ms[k].start
    requires Lacks(p, '{') && Lacks(s[pos..ms[k].start], '{')
    ensures ReplaceFirst(p + s[pos..], ms[k].text, v) ==
              (p + s[pos..ms[k].start] + v) + s[ms[k].End()..]
  {
    var t := ms[k].text;
    var a := p + s[pos..ms[k].start];
    assert Found(s, ms[k]);
    assert p + s[pos..] == a + t + s[ms[k].End()..];
    ReplaceFirstAfter(a, t, s[ms[k].End()..], v);
  }

  /** The text before match `k` once it has been replaced. */
  function DoneBefore(s: string, ms: seq<Match>, vs: seq<string>, k: nat, pos: nat, p: string): string
    requires |vs| == |ms| && AllFound(s, ms) && k < |ms| && pos <= ms[k].start
  {
    p + s[pos..ms[k].start] + vs[k]
  }

  /** Replacing match `k` turns the replaced prefix `p` into `DoneBefore`. */
  lemma ReplaceEachStep(s: string, ms: seq<Match>, vs: seq<string>, k: nat, pos: nat, p: string)
    requires |vs| == |ms| && AllFound(s, ms) && Ordered(ms)
    requires k < |ms| && pos <= ms[k].start
    requires k > 0 ==> ms[k - 1].End() <= pos
    requires BracesStartMatches(s, ms)
    requires Lacks(vs[k], '{') && Lacks(p, '{')
    ensures Lacks(DoneBefore(s, ms, vs, k, pos, p), '{')
    ensures ReplaceEach(p + s[pos..], Pairs(ms, vs)[k..]) ==
              ReplaceEach(DoneBefore(s, ms, vs, k, pos, p) + s[ms[k].End()..], Pairs(ms, vs)[k + 1..])
  {
    var subs := Pairs(ms, vs)[k..];
    NoBraceInGap(s, ms, k, pos);
    ReplaceStep(s, ms, vs[k], k, pos, p);
    assert subs[0] == (ms[k].text, vs[k]);
    assert subs[1..] == Pairs(ms, vs)[k + 1..];
  }

  lemma SpliceStep(s: string, ms: seq<Match>, vs: seq<string>, k: nat, pos: nat, p: string)
    requires |vs| == |ms| && AllFound(s, ms) && Ordered(ms)
    requires k < |ms| && pos <= ms[k].start
    ensures p + SpliceFrom(s, ms, vs, k, pos) ==
              DoneBefore(s, ms, vs, k, pos, p) + SpliceFrom(s, ms, vs, k + 1, ms[k].End())
  {
    var rest := SpliceFrom(s, ms, vs, k + 1, ms[k].End());
    assert SpliceFrom(s, ms, vs, k, pos) == s[pos..ms[k].start] + vs[k] + rest;
  }

  /** Sequential first-occurrence replacement agrees with positional substitution when no
      value and no text outside the placeholders contains a `{`. */
  lemma {:induction false} ReplaceEachIsSplice(s: string, ms: seq<Match>, vs: seq<string>, k: nat, pos: nat, p: string)
    requires |vs| == |ms| && k <= |ms| && pos <= |s|
    requires AllFound(s, ms) && Ordered(ms)
    requires k < |ms| ==> pos <= ms[k].start
    requires k > 0 ==> ms[k - 1].End() <= pos
    requires BracesStartMatches(s, ms)
    requires forall j :: 0 <= j < |vs| ==> Lacks(vs[j], '{')
    requires Lacks(p, '{')
    ensures ReplaceEach(p + s[pos..], Pairs(ms, vs)[k..]) == p + SpliceFrom(s, ms, vs, k, pos)
    decreases |ms| - k
  {
    if k < |ms| {
      var done := DoneBefore(s, ms, vs, k, pos, p);
      var e := ms[k].End();
      ReplaceEachStep(s, ms, vs, k, pos, p);
      var left := ReplaceEach(done + s[e..], Pairs(ms, vs)[k + 1..]);
      assert ReplaceEach(p + s[pos..], Pairs(ms, vs)[k..]) == left;
      ReplaceEachIsSplice(s, ms, vs, k + 1, e, done);
      assert left == done + SpliceFrom(s, ms, vs, k + 1, e);
      SpliceStep(s, ms, vs, k, pos, p);
    } else {
      assert Pairs(ms, vs)[k..] == [];
    }
  }

  /** The value every parsed field contributes, in parse order. */
  function Values(fields: seq<IndexField>, rec: Record, ts: HostTime, clock: Clock): (vs: seq<string>)
    ensures |vs| == |fields|
    ensures forall i :: 0 <= i < |fields| ==> vs[i] == FieldValue(fields[i], rec, ts, clock)
  {
    seq(|fields|, i requires 0 <= i < |fields| => FieldValue(fields[i], rec, ts, clock))
  }

  /** Every `{` of the template opens a placeholder. */
  ghost predicate BracesOpenPlaceholders(s: string) {
    forall x :: 0 <= x < |s| && s[x] == '{' ==> exists q :: x < q <= |s| && IsPlaceholder(s[x..q])
  }

  /** When every `{` of the template opens a placeholder and no substituted value contains
      a `{`, `getIndex` replaces each placeholder in place by its own field's value: each
      one exactly once, left to right. */
  lemma GetIndexIsPositional(rec: Record, ts: HostTime, ctx: Ctx, clock: Clock)
    requires ctx.parsedIndex == ParseTemplate(ctx.index)
    requires BracesOpenPlaceholders(ctx.index)
    requires forall i :: 0 <= i < |ctx.parsedIndex| ==>
               Lacks(FieldValue(ctx.parsedIndex[i], rec, ts, clock), '{')
    ensures GetIndex(rec, ts, ctx, clock) ==
              ToLower(Splice(ctx.index, Scan(ctx.index), Values(ctx.parsedIndex, rec, ts, clock)))
  {
    var s := ctx.index;
    var vs := Values(ctx.parsedIndex, rec, ts, clock);
    BracesStartScan(s);
    SubstitutionsArePairs(s, rec, ts, clock);
    ReplaceEachSplices(s, Scan(s), vs);
  }

  /** The whole sequential replacement, from the start of the template. */
  lemma ReplaceEachSplices(s: string, ms: seq<Match>, vs: seq<string>)
    requires |vs| == |ms| && AllFound(s, ms) && Ordered(ms)
    requires BracesStartMatches(s, ms)
    requires forall j :: 0 <= j < |vs| ==> Lacks(vs[j], '{')
    ensures ReplaceEach(s, Pairs(ms, vs)) == Splice(s, ms, vs)
  {
    assert Pairs(ms, vs)[0..] == Pairs(ms, vs);
    assert "" + s[0..] == s;
    ReplaceEachIsSplice(s, ms, vs, 0, 0, "");
    assert "" + Splice(s, ms, vs) == Splice(s, ms, vs);
  }

  /** Every `{` opening a placeholder, every `{` starts a scanned match. */
  lemma BracesStartScan(s: string)
    requires BracesOpenPlaceholders(s)
    ensures BracesStartMatches(s, Scan(s))
  {
    assert Complete(s, 0, Scan(s));
  }

  /** The substitutions of the parsed fields pair each scanned match with its value. */
  lemma SubstitutionsArePairs(s: string, rec: Record, ts: HostTime, clock: Clock)
    ensures var fields := ParseTemplate(s);
            Substitutions(fields, rec, ts, clock) == Pairs(Scan(s), Values(fields, rec, ts, clock))
  {
  }

  // ---------------------------------------------------------------------------
  // Worked examples: the template `logs-{service}-{ts#timestamp}`, and a record value
  // that contains placeholder text (template `{a}-{b}`)
  // ---------------------------------------------------------------------------

  const ExampleStamp: string := "2024-03-05T10:00:00Z"

  /** With `service` = `Auth` and `ts` an RFC 3339 stamp of 5 March 2024, the record goes
      to `logs-auth-2024.03.05`. */
  lemma ResolveExample(ts: HostTime, ctx: Ctx, clock: Clock)
    requires ctx.index == ExampleTemplate && ctx.parsedIndex == ParseTemplate(ctx.index)
    requires clock.parseRfc3339(ExampleStamp) == Some(Date(2024, 3, 5))
    ensures GetIndex(map["service" := Text("Auth"), "ts" := Text(ExampleStamp)], ts, ctx, clock)
              == "logs-auth-2024.03.05"
  {
    var rec := map["service" := Text("Auth"), "ts" := Text(ExampleStamp)];
    ExampleDateTexts();
    assert FieldValue(IndexField("{ts#timestamp}", "ts", true), rec, ts, clock) == "2024.03.05";
    ExampleSubstitutions(rec, ts, clock);
    ExampleReplaceEach("2024.03.05");
    ExampleLower();
  }

  /** When `ts` does not parse, the host date fills in, unpadded: a host date of 5 March
      2024 gives `logs-auth-2024.3.5`. */
  lemma ResolveFallbackExample(ts: HostTime, ctx: Ctx, clock: Clock)
    requires ctx.index == ExampleTemplate && ctx.parsedIndex == ParseTemplate(ctx.index)
    requires clock.parseRfc3339("not a date") == None
    requires HostDate(ts, clock) == Date(2024, 3, 5)
    ensures GetIndex(map["service" := Text("Auth"), "ts" := Text("not a date")], ts, ctx, clock)
              == "logs-auth-2024.3.5"
  {
    var rec := map["service" := Text("Auth"), "ts" := Text("not a date")];
    ExampleDateTexts();
    assert FieldValue(IndexField("{ts#timestamp}", "ts", true), rec, ts, clock) == "2024.3.5";
    ExampleSubstitutions(rec, ts, clock);
    ExampleReplaceEach("2024.3.5");
    ExampleLower();
  }

  const InjectTemplate: string := "{a}-{b}"

  /** A record value containing another field's placeholder text is reached by that
      field's replacement: with `a` = `{b}` and `b` = `B`, the template `{a}-{b}` resolves
      to `b-{b}`, not `{b}-b`. The template's own `{b}` is left in the index name. */
  lemma ValueCanCaptureLaterPlaceholder(ts: HostTime, ctx: Ctx, clock: Clock)
    requires ctx.index == InjectTemplate && ctx.parsedIndex == ParseTemplate(ctx.index)
    ensures GetIndex(map["a" := Text("{b}"), "b" := Text("B")], ts, ctx, clock) == "b-{b}"
  {
    var rec := map["a" := Text("{b}"), "b" := Text("B")];
    InjectSubstitutions(rec, ts, clock);
    InjectReplaceEach();
    InjectLower();
  }

  /** Substituted in place, the same record would give `{b}-b`. */
  lemma InjectPositional(ts: HostTime, clock: Clock)
    ensures ToLower(Splice(InjectTemplate, Scan(InjectTemplate),
                           Values(ParseTemplate(InjectTemplate), map["a" := Text("{b}"), "b" := Text("B")], ts, clock)))
              == "{b}-b"
  {
    InjectScan();
    InjectValues(map["a" := Text("{b}"), "b" := Text("B")], ts, clock);
    SpliceTwo(InjectTemplate, Scan(InjectTemplate), ["{b}", "B"]);
    InjectPieces();
    InjectLower();
  }

  // ---------------------------------------------------------------------------
  // Proof steps for the worked examples, one concrete fact each
  // ---------------------------------------------------------------------------

  lemma ExampleDateTexts()
    ensures PaddedDate(Date(2024, 3, 5)) == "2024.03.05"
    ensures UnpaddedDate(Date(2024, 3, 5)) == "2024.3.5"
  {
    ExamplePaddedDate();
    ExampleUnpaddedDate();
  }

  lemma ExamplePaddedDate()
    ensures PaddedDate(Date(2024, 3, 5)) == "2024.03.05"
  {
    ExampleDigits();
    ExamplePads();
    PaddedDateParts(Date(2024, 3, 5));
  }

  lemma ExampleUnpaddedDate()
    ensures UnpaddedDate(Date(2024, 3, 5)) == "2024.3.5"
  {
    ExampleDigits();
    UnpaddedDateParts(Date(2024, 3, 5));
  }

  lemma ExamplePads()
    ensures ZeroPad("2024", 4) == "2024" && ZeroPad("3", 2) == "03" && ZeroPad("5", 2) == "05"
  {
    assert ZeroPad("3", 2) == ZeroPad("03", 2);
    assert ZeroPad("5", 2) == ZeroPad("05", 2);
  }

  lemma ExampleDigits()
    ensures Digits(2024) == "2024" && Digits(3) == "3" && Digits(5) == "5"
  {
    assert Digits(2) == "2" && Digits(20) == "20" && Digits(202) == "202";
  }

  lemma ExampleSplitService()
    ensures ExampleTemplate == "logs-" + "{service}" + "-{ts#timestamp}"
    ensures Lacks("logs-", '{')
  {
  }

  lemma ExampleJoinService()
    ensures "logs-" + "Auth" + "-{ts#timestamp}" == "logs-Auth-{ts#timestamp}"
    ensures "logs-Auth-{ts#timestamp}" == "logs-Auth-" + "{ts#timestamp}" + ""
    ensures Lacks("logs-Auth-", '{')
  {
  }

  /** The first substitution puts the service name in place of `{service}`. */
  lemma ExampleReplaceService()
    ensures ReplaceFirst(ExampleTemplate, "{service}", "Auth") == "logs-Auth-{ts#timestamp}"
  {
    ExampleSplitService();
    ExampleJoinService();
    ReplaceFirstAfter("logs-", "{service}", "-{ts#timestamp}", "Auth");
  }

  /** The second substitution puts a date in place of `{ts#timestamp}`. */
  lemma ExampleReplaceStamp(date: string)
    ensures ReplaceFirst("logs-Auth-{ts#timestamp}", "{ts#timestamp}", date) == "logs-Auth-" + date
  {
    ExampleJoinService();
    ReplaceFirstAfter("logs-Auth-", "{ts#timestamp}", "", date);
  }

  lemma ExampleLower()
    ensures ToLower("logs-Auth-" + "2024.03.05") == "logs-auth-2024.03.05"
    ensures ToLower("logs-Auth-" + "2024.3.5") == "logs-auth-2024.3.5"
  {
    assert "logs-Auth-" + "2024.03.05" == "logs-Auth-2024.03.05";
    assert "logs-Auth-" + "2024.3.5" == "logs-Auth-2024.3.5";
  }

  /** Both substitutions, in parse order. */
  lemma ExampleReplaceEach(date: string)
    ensures ReplaceEach(ExampleTemplate, [("{service}", "Auth"), ("{ts#timestamp}", date)])
              == "logs-Auth-" + date
  {
    ReplaceEachTwo(ExampleTemplate, ("{service}", "Auth"), ("{ts#timestamp}", date));
    ExampleReplaceService();
    ExampleReplaceStamp(date);
  }

  /** The substitutions for a record whose `service` is `Auth`. */
  lemma ExampleSubstitutions(rec: Record, ts: HostTime, clock: Clock)
    requires "service" in rec && rec["service"] == Text("Auth")
    ensures Substitutions(ParseTemplate(ExampleTemplate), rec, ts, clock) ==
              [("{service}", "Auth"),
               ("{ts#timestamp}", FieldValue(IndexField("{ts#timestamp}", "ts", true), rec, ts, clock))]
  {
    ParseExample();
    var fields := ParseTemplate(ExampleTemplate);
    SubstitutionsOfTwo(fields, rec, ts, clock);
    assert FieldValue(fields[0], rec, ts, clock) == "Auth";
  }

  lemma SubstitutionsOfTwo(fields: seq<IndexField>, rec: Record, ts: HostTime, clock: Clock)
    requires |fields| == 2
    ensures Substitutions(fields, rec, ts, clock) ==
              [(fields[0].replace, FieldValue(fields[0], rec, ts, clock)),
               (fields[1].replace, FieldValue(fields[1], rec, ts, clock))]
  {
  }

  lemma InjectMatches()
    ensures MatchAt(InjectTemplate, 0) == Some(Match(0, "{a}", "a"))
    ensures MatchAt(InjectTemplate, 4) == Some(Match(4, "{b}", "b"))
  {
    var s := InjectTemplate;
    MatchAtPlaceholder(s, 0, 2);
    MatchAtPlaceholder(s, 4, 6);
    assert s[0..3] == "{a}" && s[1..2] == "a";
    assert s[4..7] == "{b}" && s[5..6] == "b";
  }

  lemma InjectScanFirst()
    ensures ScanFrom(InjectTemplate, 0) == [Match(0, "{a}", "a")] + ScanFrom(InjectTemplate, 3)
  {
    InjectMatches();
    ScanTakes(InjectTemplate, 0, Match(0, "{a}", "a"));
  }

  lemma InjectScanSecond()
    ensures ScanFrom(InjectTemplate, 3) == [Match(4, "{b}", "b")]
  {
    InjectMatches();
    ScanSkips(InjectTemplate, 3, 4);
    ScanTakes(InjectTemplate, 4, Match(4, "{b}", "b"));
  }

  lemma InjectScan()
    ensures Scan(InjectTemplate) == [Match(0, "{a}", "a"), Match(4, "{b}", "b")]
  {
    InjectScanFirst();
    InjectScanSecond();
  }

  lemma InjectSuffixes()
    ensures !HasSuffix("a", TimestampSuffix)
    ensures !HasSuffix("b", TimestampSuffix)
  {
  }

  lemma InjectParse()
    ensures Scan(InjectTemplate) == [Match(0, "{a}", "a"), Match(4, "{b}", "b")]
    ensures ParseTemplate(InjectTemplate) == [IndexField("{a}", "a", false), IndexField("{b}", "b", false)]
  {
    InjectScan();
    ParseOfTwo(InjectTemplate);
    InjectSuffixes();
    assert ToField(Match(0, "{a}", "a")) == IndexField("{a}", "a", false);
    assert ToField(Match(4, "{b}", "b")) == IndexField("{b}", "b", false);
  }

  lemma InjectSplitFirst()
    ensures InjectTemplate == "" + "{a}" + "-{b}"
    ensures "" + "{b}" + "-{b}" == "{b}-{b}"
    ensures Lacks("", '{')
  {
  }

  lemma InjectSplitSecond()
    ensures "{b}-{b}" == "" + "{b}" + "-{b}"
    ensures "" + "B" + "-{b}" == "B-{b}"
  {
  }

  lemma InjectReplacements()
    ensures ReplaceFirst(InjectTemplate, "{a}", "{b}") == "{b}-{b}"
    ensures ReplaceFirst("{b}-{b}", "{b}", "B") == "B-{b}"
  {
    InjectSplitFirst();
    InjectSplitSecond();
    ReplaceFirstAfter("", "{a}", "-{b}", "{b}");
    ReplaceFirstAfter("", "{b}", "-{b}", "B");
  }

  lemma InjectLookups(rec: Record)
    requires rec == map["a" := Text("{b}"), "b" := Text("B")]
    ensures Lookup(rec, "a") == "{b}" && Lookup(rec, "b") == "B"
  {
    assert "a" in rec && rec["a"] == Text("{b}");
    assert "b" in rec && rec["b"] == Text("B");
  }

  lemma InjectFieldValues(rec: Record, ts: HostTime, clock: Clock)
    requires rec == map["a" := Text("{b}"), "b" := Text("B")]
    ensures FieldValue(IndexField("{a}", "a", false), rec, ts, clock) == "{b}"
    ensures FieldValue(IndexField("{b}", "b", false), rec, ts, clock) == "B"
  {
    InjectLookups(rec);
  }

  lemma InjectSubstitutions(rec: Record, ts: HostTime, clock: Clock)
    requires rec == map["a" := Text("{b}"), "b" := Text("B")]
    ensures Substitutions(ParseTemplate(InjectTemplate), rec, ts, clock) == [("{a}", "{b}"), ("{b}", "B")]
  {
    InjectParse();
    InjectFieldValues(rec, ts, clock);
    var fields := ParseTemplate(InjectTemplate);
    var subs := Substitutions(fields, rec, ts, clock);
    assert subs[0] == ("{a}", "{b}");
    assert subs[1] == ("{b}", "B");
  }

  lemma InjectReplaceEach()
    ensures ReplaceEach(InjectTemplate, [("{a}", "{b}"), ("{b}", "B")]) == "B-{b}"
  {
    ReplaceEachTwo(InjectTemplate, ("{a}", "{b}"), ("{b}", "B"));
    InjectReplacements();
  }

  lemma InjectLower()
    ensures ToLower("B-{b}") == "b-{b}"
    ensures ToLower("{b}-B") == "{b}-b"
  {
  }

  /** In-place substitution of two matches. */
  lemma SpliceTwo(s: string, ms: seq<Match>, vs: seq<string>)
    requires |ms| == 2 && |vs| == 2
    requires AllFound(s, ms) && Ordered(ms)
    ensures Splice(s, ms, vs) ==
              s[..ms[0].start] + vs[0] + s[ms[0].End()..ms[1].start] + vs[1] + s[ms[1].End()..]
  {
    assert Found(s, ms[0]) && Found(s, ms[1]);
    assert ms[0].End() <= ms[1].start;
    var tail := SpliceFrom(s, ms, vs, 1, ms[0].End());
    assert tail == s[ms[0].End()..ms[1].start] + vs[1] + SpliceFrom(s, ms, vs, 2, ms[1].End());
    assert SpliceFrom(s, ms, vs, 0, 0) == s[0..ms[0].start] + vs[0] + tail;
    assert s[0..ms[0].start] == s[..ms[0].start];
  }

  lemma InjectPieces()
    ensures InjectTemplate[..0] == "" && InjectTemplate[3..4] == "-" && InjectTemplate[7..] == ""
    ensures "" + "{b}" + "-" + "B" + "" == "{b}-B"
  {
  }

  lemma InjectValues(rec: Record, ts: HostTime, clock: Clock)
    requires rec == map["a" := Text("{b}"), "b" := Text("B")]
    ensures Values(ParseTemplate(InjectTemplate), rec, ts, clock) == ["{b}", "B"]
  {
    InjectParse();
    InjectFieldValues(rec, ts, clock);
    var fields := ParseTemplate(InjectTemplate);
    var vs := Values(fields, rec, ts, clock);
    assert vs[0] == FieldValue(IndexField("{a}", "a", false), rec, ts, clock);
    assert vs[1] == FieldValue(IndexField("{b}", "b", false), rec, ts, clock);
  }
}

=== FILE: records.dfy ===
/** Record normalisation (`decodeRecord`): fluent-bit delivers each record as a
    `map[interface{}]interface{}`; the plugin turns it into a `map[string]interface{}`,
    converting byte slices to strings and nested maps recursively. */
module Records {
  import opened Wrappers

  /** A key of a raw map: a Go string, or a value of some other type named by `%T`. */
  datatype RawKey = StringKey(name: string) | OtherKey(typeName: string)

  /** A raw value as the msgpack decoder produces it. A raw map is given as its entries in
      Go's iteration order, which is unspecified; the model holds for every order. */
  datatype Raw =
    | RawString(s: string)
    | RawBytes(bytes: seq<bv8>)
    | RawMap(entries: seq<(RawKey, Raw)>)
    | RawArray(items: seq<Raw>)
    | RawInt(i: int)
    | RawUint(u: nat)
    | RawFloat(bits: bv64)
    | RawBool(b: bool)
    | RawNil

  /** A normalised value: a string, a nested normalised record, or any other raw value
      kept exactly as it was. */
  datatype Value = Text(s: string) | Nested(fields: map<string, Value>) | Passthrough(raw: Raw)

  /** Go's `record`, a `map[string]interface{}`. */
  type Record = map<string, Value>

  /** The error `bad key type: %T`. */
  datatype DecodeError = BadKeyType(typeName: string)

  /** Go's `string(x)` for `x []uint8`: one character per byte. */
  function BytesToString(b: seq<bv8>): (s: string)
    ensures |s| == |b|
    ensures forall i :: 0 <= i < |b| ==> s[i] as int == b[i] as int
  {
    seq(|b|, i requires 0 <= i < |b| => (b[i] as int) as char)
  }

  /** Every key of every map inside `v`, at any depth, is a string. */
  ghost predicate WellKeyed(v: Raw)
    decreases v
  {
    match v
    case RawMap(es) => forall i :: 0 <= i < |es| ==> es[i].0.StringKey? && WellKeyed(es[i].1)
    case _ => true
  }

  /** A key of type `t` occurs somewhere inside `v`. */
  ghost predicate HasKeyOfType(v: Raw, t: string)
    decreases v
  {
    match v
    case RawMap(es) => exists i :: 0 <= i < |es| && (es[i].0 == OtherKey(t) || HasKeyOfType(es[i].1, t))
    case _ => false
  }

  /** Entry `i` is the last among the first `n` entries with its key, so a Go map built by
      assigning the entries in order ends up holding its value. */
  predicate LastWithKey(es: seq<(RawKey, Raw)>, n: nat, i: nat)
    requires i < n <= |es|
  {
    forall j :: i < j < n ==> es[j].0 != es[i].0
  }

  /** The string keys among the first `n` entries. */
  function KeysOf(es: seq<(RawKey, Raw)>, n: nat): set<string>
    requires n <= |es|
  {
    set i | 0 <= i < n && es[i].0.StringKey? :: es[i].0.name
  }

  /** The first `n` entries have string keys and well-keyed values. */
  ghost predicate EntriesWellKeyed(es: seq<(RawKey, Raw)>, n: nat)
    requires n <= |es|
  {
    forall i :: 0 <= i < n ==> es[i].0.StringKey? && WellKeyed(es[i].1)
  }

  /** A key of type `t` occurs among, or inside, the first `n` entries. */
  ghost predicate BadKeyAmong(es: seq<(RawKey, Raw)>, n: nat, t: string)
    requires n <= |es|
  {
    exists i :: 0 <= i < n && (es[i].0 == OtherKey(t) || HasKeyOfType(es[i].1, t))
  }

  lemma KeysOfStep(es: seq<(RawKey, Raw)>, n: nat)
    requires 0 < n <= |es| && es[n - 1].0.StringKey?
    ensures KeysOf(es, n) == KeysOf(es, n - 1) + {es[n - 1].0.name}
  {
  }

  lemma BadKeyAmongGrows(es: seq<(RawKey, Raw)>, n: nat, m: nat, t: string)
    requires n <= m <= |es| && BadKeyAmong(es, n, t)
    ensures BadKeyAmong(es, m, t)
  {
  }

  /** The normalised form of one value. It fails exactly when some key inside is not a
      string, naming the type of such a key. Bytes become a string, a map becomes a
      nested record with the same keys, and everything else is kept unchanged. */
  function DecodeValue(v: Raw): (r: Result<Value, DecodeError>)
    ensures r.Success? <==> WellKeyed(v)
    ensures r.Failure? ==> HasKeyOfType(v, r.error.typeName)
    ensures r.Success? && v.RawBytes? ==> r.value == Text(BytesToString(v.bytes))
    ensures r.Success? && v.RawString? ==> r.value == Text(v.s)
    ensures r.Success? && v.RawMap? ==>
              r.value.Nested? && r.value.fields.Keys == KeysOf(v.entries, |v.entries|)
    ensures r.Success? && v.RawMap? ==>
              forall i :: 0 <= i < |v.entries| && LastWithKey(v.entries, |v.entries|, i) ==>
                DecodeValue(v.entries[i].1).Success? &&
                r.value.fields[v.entries[i].0.name] == DecodeValue(v.entries[i].1).value
    ensures !v.RawBytes? && !v.RawString? && !v.RawMap? ==> r == Success(Passthrough(v))
    decreases v, 1, 0, 0
  {
    match v
    case RawBytes(b) => Success(Text(BytesToString(b)))
    case RawString(s) => Success(Text(s))
    case RawMap(es) =>
      (match DecodeEntries(v, |es|)
       case Failure(e) => Failure(e)
       case Success(m) =>
         assert forall i :: 0 <= i < |es| && LastWithKey(es, |es|, i) ==>
                  DecodeValue(es[i].1).Success? && m[es[i].0.name] == DecodeValue(es[i].1).value by {
           forall i | 0 <= i < |es| && LastWithKey(es, |es|, i)
             ensures DecodeValue(es[i].1).Success? && m[es[i].0.name] == DecodeValue(es[i].1).value
           {
             DecodeEntriesValues(v, |es|, i);
           }
         }
         Success(Nested(m)))
    case _ => Success(Passthrough(v))
  }

  /** The Go loop over the first `n` entries of the raw map `v`, in iteration order: it
      stops at the first non-string key (or failing nested map), and otherwise yields a
      record whose keys are exactly the string keys seen. */
  function DecodeEntries(v: Raw, n: nat): (r: Result<Record, DecodeError>)
    requires v.RawMap? && n <= |v.entries|
    ensures r.Success? <==> EntriesWellKeyed(v.entries, n)
    ensures r.Failure? ==> BadKeyAmong(v.entries, n, r.error.typeName)
    ensures r.Success? ==> r.value.Keys == KeysOf(v.entries, n)
    decreases v, 0, n, 0
  {
    if n == 0 then Success(map[])
    else
      var es := v.entries;
      match DecodeEntries(v, n - 1)
      case Failure(e) =>
        BadKeyAmongGrows(es, n - 1, n, e.typeName);
        Failure(e)
      case Success(m) =>
        var (k, x) := es[n - 1];
        match k
        case OtherKey(t) =>
          assert es[n - 1].0 == OtherKey(t);
          Failure(BadKeyType(t))
        case StringKey(name) =>
          match DecodeValue(x)
          case Failure(e) =>
            assert HasKeyOfType(es[n - 1].1, e.typeName);
            Failure(e)
          case Success(y) =>
            KeysOfStep(es, n);
            Success(m[name := y])
  }

  /** Among the first `n` entries, the record holds for each key the normalised value of
      the last entry with that key; with distinct keys, of the one entry with it. */
  lemma {:induction false} DecodeEntriesValues(v: Raw, n: nat, i: nat)
    requires v.RawMap? && i < n <= |v.entries|
    requires DecodeEntries(v, n).Success? && LastWithKey(v.entries, n, i)
    ensures v.entries[i].0.StringKey? && DecodeValue(v.entries[i].1).Success?
    ensures DecodeEntries(v, n).value[v.entries[i].0.name] == DecodeValue(v.entries[i].1).value
    decreases v, 0, n, 1
  {
    if i < n - 1 {
      assert LastWithKey(v.entries, n - 1, i);
      DecodeEntriesValues(v, n - 1, i);
    }
  }

  /** `decodeRecord` on a whole raw record: it succeeds exactly when every key at every
      depth is a string, fails naming the type of some offending key otherwise, and on
      success keeps exactly the record's keys. */
  function DecodeRecord(entries: seq<(RawKey, Raw)>): (r: Result<Record, DecodeError>)
    ensures r.Success? <==> WellKeyed(RawMap(entries))
    ensures r.Failure? ==> HasKeyOfType(RawMap(entries), r.error.typeName)
    ensures r.Success? ==> r.value.Keys == KeysOf(entries, |entries|)
  {
    DecodeEntries(RawMap(entries), |entries|)
  }

  /** The keys of a Go map are distinct. */
  predicate DistinctKeys(entries: seq<(RawKey, Raw)>) {
    forall i, j :: 0 <= i < j < |entries| ==> entries[i].0 != entries[j].0
  }

  /** On success every entry's key maps to that entry's normalised value. */
  lemma DecodeRecordValues(entries: seq<(RawKey, Raw)>, i: nat)
    requires DistinctKeys(entries) && i < |entries|
    requires DecodeRecord(entries).Success?
    ensures entries[i].0.StringKey? && DecodeValue(entries[i].1).Success?
    ensures DecodeRecord(entries).value[entries[i].0.name] == DecodeValue(entries[i].1).value
  {
    DecodeEntriesValues(RawMap(entries), |entries|, i);
  }
}

=== FILE: template.dfy ===
/** The index-name template: the scan that Go's `regexp` performs with the pattern
    `{([a-zA-Z_0-9#]*)}` (FindAllStringSubmatch), and the parsing of each match into an
    `indexField` at instance initialisation. */
module Template {
  import opened Wrappers
  import opened Text

  /** The character class `[a-zA-Z_0-9#]` of the placeholder pattern. */
  predicate IsNameChar(c: char) {
    'a' <= c <= 'z' || 'A' <= c <= 'Z' || '0' <= c <= '9' || c == '_' || c == '#'
  }

  /** `t` is a whole match of the pattern: `{`, any number of name characters, `}`. */
  predicate IsPlaceholder(t: string) {
    && |t| >= 2
    && t[0] == '{'
    && t[|t| - 1] == '}'
    && forall k :: 0 < k < |t| - 1 ==> IsNameChar(t[k])
  }

  /** One match: where it starts, the whole matched text, and the captured name. */
  datatype Match = Match(start: nat, text: string, name: string) {
    function End(): nat { start + |text| }
  }

  /** The first index at or after `j` that does not hold a name character. */
  function NameEnd(s: string, j: nat): (e: nat)
    requires j <= |s|
    ensures j <= e <= |s|
    ensures forall k :: j <= k < e ==> IsNameChar(s[k])
    ensures e < |s| ==> !IsNameChar(s[e])
    decreases |s| - j
  {
    if j == |s| || !IsNameChar(s[j]) then j else NameEnd(s, j + 1)
  }

  /** The match of the pattern that starts at index `i`, if one does. */
  function MatchAt(s: string, i: nat): (m: Option<Match>)
    requires i < |s|
    ensures m.Some? ==> m.value.start == i && m.value.End() <= |s|
    ensures m.Some? ==> s[i..m.value.End()] == m.value.text
    ensures m.Some? ==> IsPlaceholder(m.value.text)
    ensures m.Some? ==> m.value.text == "{" + m.value.name + "}"
  {
    if s[i] != '{' then None
    else
      var e := NameEnd(s, i + 1);
      if e < |s| && s[e] == '}' then Some(Match(i, s[i..e + 1], s[i + 1..e])) else None
  }

  /** A run of name characters from `j` up to `k` is covered by `NameEnd`. */
  lemma {:induction false} NameEndCovers(s: string, j: nat, k: nat)
    requires j <= k <= |s|
    requires forall x :: j <= x < k ==> IsNameChar(s[x])
    ensures k <= NameEnd(s, j)
    decreases k - j
  {
    if j < k {
      NameEndCovers(s, j + 1, k);
    }
  }

  /** A placeholder starting at `p` is the match the scan finds there. */
  lemma PlaceholderIsMatch(s: string, p: nat, q: nat)
    requires p < q <= |s| && IsPlaceholder(s[p..q])
    ensures MatchAt(s, p).Some? && MatchAt(s, p).value.End() == q
  {
    var t := s[p..q];
    assert forall k :: p + 1 <= k < q - 1 ==> s[k] == t[k - p];
    NameEndCovers(s, p + 1, q - 1);
    assert s[q - 1] == t[|t| - 1];
  }

  /** No placeholder starts strictly inside a match. */
  lemma NoPlaceholderInsideMatch(s: string, m: Match, p: nat, q: nat)
    requires m.start < |s| && MatchAt(s, m.start) == Some(m)
    requires m.start < p < m.End() && p < q <= |s|
    ensures !IsPlaceholder(s[p..q])
  {
    assert s[p] == m.text[p - m.start];
    assert m.text[p - m.start] != '{';
    assert s[p..q][0] == s[p];
  }

  /** `m` is a match found in `s`: it lies in `s`, and its text is a placeholder. */
  predicate Found(s: string, m: Match) {
    && m.End() <= |s|
    && s[m.start..m.End()] == m.text
    && IsPlaceholder(m.text)
    && m.text == "{" + m.name + "}"
  }

  /** Every match of `ms` is found in `s`. */
  predicate AllFound(s: string, ms: seq<Match>) {
    forall j {:trigger ms[j]} :: 0 <= j < |ms| ==> Found(s, ms[j])
  }

  /** The matches are in increasing order and do not overlap. */
  predicate Ordered(ms: seq<Match>) {
    forall j, k :: 0 <= j < k < |ms| ==> ms[j].End() <= ms[k].start
  }

  /** Every placeholder of `s` that starts at or after `i` starts one of the matches. */
  predicate Complete(s: string, i: nat, ms: seq<Match>) {
    forall p, q :: i <= p < q <= |s| && IsPlaceholder(s[p..q]) ==>
      exists j :: 0 <= j < |ms| && ms[j].start == p
  }

  lemma OrderedCons(m: Match, rest: seq<Match>)
    requires Ordered(rest)
    requires forall j :: 0 <= j < |rest| ==> m.End() <= rest[j].start
    ensures Ordered([m] + rest)
  {
    var ms := [m] + rest;
    forall j, k | 0 <= j < k < |ms| ensures ms[j].End() <= ms[k].start {
      assert ms[k] == rest[k - 1];
      if j > 0 {
        assert ms[j] == rest[j - 1];
      }
    }
  }

  lemma NoMatchNoPlaceholder(s: string, i: nat, rest: seq<Match>)
    requires i < |s| && MatchAt(s, i).None? && Complete(s, i + 1, rest)
    ensures Complete(s, i, rest)
  {
    forall p, q | i <= p < q <= |s| && IsPlaceholder(s[p..q])
      ensures exists j :: 0 <= j < |rest| && rest[j].start == p
    {
      if p == i {
        PlaceholderIsMatch(s, i, q);
      }
    }
  }

  lemma MatchThenRest(s: string, m: Match, rest: seq<Match>)
    requires m.start < |s| && MatchAt(s, m.start) == Some(m)
    requires m.End() <= |s| && Complete(s, m.End(), rest)
    ensures Complete(s, m.start, [m] + rest)
  {
    var ms := [m] + rest;
    forall p, q | m.start <= p < q <= |s| && IsPlaceholder(s[p..q])
      ensures exists j :: 0 <= j < |ms| && ms[j].start == p
    {
      if p == m.start {
        assert ms[0].start == p;
      } else if p < m.End() {
        NoPlaceholderInsideMatch(s, m, p, q);
      } else {
        var j :| 0 <= j < |rest| && rest[j].start == p;
        assert ms[j + 1].start == p;
      }
    }
  }

  /** Successive non-overlapping matches from index `i` on, leftmost first: every match
      lies in `s` at or after `i`, they are in increasing order, and every placeholder
      starting at or after `i` is one of them. */
  function ScanFrom(s: string, i: nat): (ms: seq<Match>)
    requires i <= |s|
    ensures forall j :: 0 <= j < |ms| ==> i <= ms[j].start
    ensures AllFound(s, ms)
    ensures Ordered(ms)
    ensures Complete(s, i, ms)
    decreases |s| - i
  {
    if i == |s| then []
    else match MatchAt(s, i)
      case None =>
        var rest := ScanFrom(s, i + 1);
        NoMatchNoPlaceholder(s, i, rest);
        rest
      case Some(m) =>
        var rest := ScanFrom(s, m.End());
        MatchThenRest(s, m, rest);
        OrderedCons(m, rest);
        [m] + rest
  }

  /** All matches of the placeholder pattern in `s`, left to right. */
  function Scan(s: string): seq<Match> {
    ScanFrom(s, 0)
  }

  /** `NameEnd` stops exactly at the first character outside the class. */
  lemma NameEndAt(s: string, j: nat, e: nat)
    requires j <= e <= |s|
    requires forall x :: j <= x < e ==> IsNameChar(s[x])
    requires e == |s| || !IsNameChar(s[e])
    ensures NameEnd(s, j) == e
  {
    NameEndCovers(s, j, e);
  }

  /** The scan passes over text without a `{`. */
  lemma {:induction false} ScanSkips(s: string, i: nat, j: nat)
    requires i <= j <= |s|
    requires forall x :: i <= x < j ==> s[x] != '{'
    ensures ScanFrom(s, i) == ScanFrom(s, j)
    decreases j - i
  {
    if i < j {
      ScanSkipsOne(s, i);
      ScanSkips(s, i + 1, j);
    }
  }

  lemma ScanSkipsOne(s: string, i: nat)
    requires i < |s| && s[i] != '{'
    ensures ScanFrom(s, i) == ScanFrom(s, i + 1)
  {
    assert MatchAt(s, i).None?;
  }

  /** A `{`, a run of name characters and a `}` form the match at `i`. */
  lemma MatchAtPlaceholder(s: string, i: nat, e: nat)
    requires i < e < |s| && s[i] == '{' && s[e] == '}'
    requires forall x :: i < x < e ==> IsNameChar(s[x])
    ensures MatchAt(s, i) == Some(Match(i, s[i..e + 1], s[i + 1..e]))
  {
    NameEndAt(s, i + 1, e);
  }

  /** A brace-delimited run of name characters is a match where it starts. */
  lemma MatchAtJoined(pre: string, name: string, post: string)
    requires forall x :: 0 <= x < |name| ==> IsNameChar(name[x])
    ensures MatchAt(pre + "{" + name + "}" + post, |pre|) == Some(Match(|pre|, "{" + name + "}", name))
  {
    var s := pre + "{" + name + "}" + post;
    var i := |pre|;
    var e := i + 1 + |name|;
    assert s[i] == '{' && s[e] == '}';
    forall x | i < x < e ensures IsNameChar(s[x]) {
      assert s[x] == name[x - i - 1];
    }
    MatchAtPlaceholder(s, i, e);
    assert s[i..e + 1] == "{" + name + "}";
    assert s[i + 1..e] == name;
  }

  /** The scan takes the match that starts at `i` and goes on after it. */
  lemma ScanTakes(s: string, i: nat, m: Match)
    requires i < |s| && MatchAt(s, i) == Some(m)
    ensures ScanFrom(s, i) == [m] + ScanFrom(s, m.End())
  {
  }

  /** Go's `indexField`: the text to replace, the record field to read, and whether that
      field is an event timestamp to be rendered as a date. */
  datatype IndexField = IndexField(replace: string, fieldName: string, isTimestamp: bool)

  const TimestampSuffix: string := "#timestamp"

  /** One match becomes one field; a trailing `#timestamp` on the name is cut off and
      marks the field as a timestamp. */
  function ToField(m: Match): (f: IndexField)
    ensures f.replace == m.text
    ensures f.isTimestamp <==> HasSuffix(m.name, TimestampSuffix)
    ensures f.isTimestamp ==> f.fieldName + TimestampSuffix == m.name
    ensures !f.isTimestamp ==> f.fieldName == m.name
  {
    if HasSuffix(m.name, TimestampSuffix) then
      var n := m.name[..|m.name| - |TimestampSuffix|];
      assert n + TimestampSuffix == m.name;
      IndexField(m.text, n, true)
    else
      IndexField(m.text, m.name, false)
  }

  /** The parsed template: one field per match, in the order the matches occur. */
  function ParseTemplate(template: string): (fields: seq<IndexField>)
    ensures |fields| == |Scan(template)|
    ensures forall i :: 0 <= i < |fields| ==> fields[i] == ToField(Scan(template)[i])
  {
    var ms := Scan(template);
    seq(|ms|, i requires 0 <= i < |ms| => ToField(ms[i]))
  }

  const ExampleTemplate: string := "logs-{service}-{ts#timestamp}"

  lemma ExampleFirstParts()
    ensures ExampleTemplate == "logs-" + "{" + "service" + "}" + "-{ts#timestamp}"
    ensures "{" + "service" + "}" == "{service}"
    ensures forall x :: 0 <= x < |"service"| ==> IsNameChar("service"[x])
  {
  }

  lemma ExampleFirstMatch()
    ensures MatchAt(ExampleTemplate, 5) == Some(Match(5, "{service}", "service"))
  {
    ExampleFirstParts();
    MatchAtJoined("logs-", "service", "-{ts#timestamp}");
  }

  lemma ExampleSecondParts()
    ensures ExampleTemplate == "logs-{service}-" + "{" + "ts#timestamp" + "}" + ""
    ensures "{" + "ts#timestamp" + "}" == "{ts#timestamp}"
    ensures forall x :: 0 <= x < |"ts#timestamp"| ==> IsNameChar("ts#timestamp"[x])
  {
  }

  lemma ExampleSecondMatch()
    ensures MatchAt(ExampleTemplate, 15) == Some(Match(15, "{ts#timestamp}", "ts#timestamp"))
  {
    ExampleSecondParts();
    MatchAtJoined("logs-{service}-", "ts#timestamp", "");
  }

  lemma ExampleScanPrefix()
    ensures ScanFrom(ExampleTemplate, 0) == ScanFrom(ExampleTemplate, 5)
  {
    var s := ExampleTemplate;
    assert s[0] != '{' && s[1] != '{' && s[2] != '{' && s[3] != '{' && s[4] != '{';
    ScanSkips(s, 0, 5);
  }

  lemma ExampleScanDash()
    ensures ScanFrom(ExampleTemplate, 14) == ScanFrom(ExampleTemplate, 15)
  {
    assert ExampleTemplate[14] != '{';
    ScanSkips(ExampleTemplate, 14, 15);
  }

  lemma ExampleScanFirst()
    ensures ScanFrom(ExampleTemplate, 5) ==
              [Match(5, "{service}", "service")] + ScanFrom(ExampleTemplate, 14)
  {
    ExampleFirstMatch();
    ScanTakes(ExampleTemplate, 5, Match(5, "{service}", "service"));
  }

  lemma ExampleScanSecond()
    ensures ScanFrom(ExampleTemplate, 15) == [Match(15, "{ts#timestamp}", "ts#timestamp")]
  {
    ExampleSecondMatch();
    ScanTakes(ExampleTemplate, 15, Match(15, "{ts#timestamp}", "ts#timestamp"));
  }

  /** The scan of `logs-{service}-{ts#timestamp}` finds its two placeholders. */
  lemma ScanExample()
    ensures Scan(ExampleTemplate) ==
              [Match(5, "{service}", "service"), Match(15, "{ts#timestamp}", "ts#timestamp")]
  {
    ExampleScanPrefix();
    ExampleScanDash();
    ExampleScanFirst();
    ExampleScanSecond();
  }

  lemma ExampleSuffixes()
    ensures HasSuffix("ts#timestamp", TimestampSuffix)
    ensures "ts#timestamp"[..|"ts#timestamp"| - |TimestampSuffix|] == "ts"
    ensures !HasSuffix("service", TimestampSuffix)
  {
    var n := "ts#timestamp";
    assert n[2] == '#' && n[3] == 't' && n[4] == 'i' && n[5] == 'm' && n[6] == 'e';
    assert n[7] == 's' && n[8] == 't' && n[9] == 'a' && n[10] == 'm' && n[11] == 'p';
    SliceIs(n, 2, TimestampSuffix);
    assert n[..2] == "ts";
  }

  /** The template `logs-{service}-{ts#timestamp}` has a plain field `service` followed by
      a timestamp field `ts`. */
  lemma ParseExample()
    ensures ParseTemplate(ExampleTemplate) ==
              [IndexField("{service}", "service", false), IndexField("{ts#timestamp}", "ts", true)]
  {
    ScanExample();
    ParseOfTwo(ExampleTemplate);
    ExampleSuffixes();
    assert ToField(Match(5, "{service}", "service")) == IndexField("{service}", "service", false);
    assert ToField(Match(15, "{ts#timestamp}", "ts#timestamp")) == IndexField("{ts#timestamp}", "ts", true);
  }

  lemma ParseOfTwo(s: string)
    requires |Scan(s)| == 2
    ensures ParseTemplate(s) == [ToField(Scan(s)[0]), ToField(Scan(s)[1])]
  {
  }
}

=== FILE: text.dfy ===
/** The pieces of Go's `strings`, `strconv` and `fmt` packages that the plugin relies on,
    over strings modelled as `seq<char>`. */
module Text {
  import opened Wrappers

  // ---------------------------------------------------------------------------
  // Lowercasing (strings.ToLower, restricted to ASCII letters)
  // ---------------------------------------------------------------------------

  predicate IsUpper(c: char) { 'A' <= c <= 'Z' }

  /** An upper-case ASCII letter becomes its lower-case letter, 32 code points on;
      every other character is kept. */
  function LowerChar(c: char): (l: char)
    ensures !IsUpper(l)
    ensures IsUpper(c) ==> l as int == c as int + 32 && 'a' <= l <= 'z'
    ensures !IsUpper(c) ==> l == c
  {
    if IsUpper(c) then (c as int - 'A' as int + 'a' as int) as char else c
  }

  /** No ASCII upper-case letter occurs in `s`. */
  predicate IsLower(s: string) {
    forall i :: 0 <= i < |s| ==> !IsUpper(s[i])
  }

  function ToLower(s: string): (l: string)
    ensures |l| == |s|
    ensures IsLower(l)
    ensures forall i :: 0 <= i < |s| && IsUpper(s[i]) ==> l[i] as int == s[i] as int + 32
    ensures forall i :: 0 <= i < |s| && !IsUpper(s[i]) ==> l[i] == s[i]
  {
    seq(|s|, i requires 0 <= i < |s| => LowerChar(s[i]))
  }

  /** A string with no upper-case letter is its own lowercasing. */
  lemma LowerFixesLower(s: string)
    requires IsLower(s)
    ensures ToLower(s) == s
  {
  }

  lemma ToLowerIdempotent(s: string)
    ensures ToLower(ToLower(s)) == ToLower(s)
  {
    LowerFixesLower(ToLower(s));
  }

  // ---------------------------------------------------------------------------
  // Searching and replacing (strings.HasSuffix, strings.Index, strings.Replace n=1)
  // ---------------------------------------------------------------------------

  function HasSuffix(s: string, suffix: string): (b: bool)
    ensures b <==> exists p: string :: s == p + suffix
  {
    if |suffix| <= |s| && s[|s| - |suffix|..] == suffix then
      assert s == s[..|s| - |suffix|] + suffix;
      true
    else
      assert forall p: string {:trigger p + suffix} :: (p + suffix)[|p|..] == suffix;
      false
  }

  /** `pat` occurs in `s` starting at index `i`. */
  predicate OccursAt(s: string, pat: string, i: nat) {
    i + |pat| <= |s| && s[i..i + |pat|] == pat
  }

  /** The first occurrence of `pat` in `s` at or after `from`, as strings.Index does from 0. */
  function IndexFrom(s: string, pat: string, from: nat): (r: Option<nat>)
    requires from <= |s|
    ensures r.Some? ==> from <= r.value && OccursAt(s, pat, r.value)
    ensures r.Some? ==> forall j :: from <= j < r.value ==> !OccursAt(s, pat, j)
    ensures r.None? ==> forall j :: from <= j <= |s| ==> !OccursAt(s, pat, j)
    decreases |s| - from
  {
    if OccursAt(s, pat, from) then Some(from)
    else if from == |s| then None
    else IndexFrom(s, pat, from + 1)
  }

  /** strings.Replace(s, old, new, 1): the first occurrence of `target`, if any, becomes `with`. */
  function ReplaceFirst(s: string, target: string, with: string): (r: string)
    ensures (forall j :: 0 <= j <= |s| ==> !OccursAt(s, target, j)) ==> r == s
    ensures forall i: nat ::
              OccursAt(s, target, i) && (forall j :: 0 <= j < i ==> !OccursAt(s, target, j)) ==>
                r == s[..i] + with + s[i + |target|..]
  {
    match IndexFrom(s, target, 0)
    case None => s
    case Some(i) => s[..i] + with + s[i + |target|..]
  }

  /** A slice equals `t` when it agrees with `t` character by character. */
  lemma SliceIs(s: string, i: nat, t: string)
    requires i + |t| <= |s|
    requires forall k :: 0 <= k < |t| ==> s[i + k] == t[k]
    ensures s[i..i + |t|] == t
  {
  }

  /** `c` does not occur in `s`. */
  predicate Lacks(s: string, c: char) {
    forall i :: 0 <= i < |s| ==> s[i] != c
  }

  /** When the first character of `t` does not occur before it, replacing the first
      occurrence of `t` replaces this one. */
  lemma ReplaceFirstAfter(a: string, t: string, b: string, v: string)
    requires |t| > 0 && Lacks(a, t[0])
    ensures ReplaceFirst(a + t + b, t, v) == a + v + b
  {
    var c := a + t + b;
    var n := |a|;
    assert OccursAt(c, t, n) by {
      assert c[n..n + |t|] == t;
    }
    forall j | 0 <= j < n ensures !OccursAt(c, t, j) {
      assert c[j] == a[j];
      if j + |t| <= |c| {
        assert c[j..j + |t|][0] == c[j];
      }
    }
    assert c[..n] == a;
    assert c[n + |t|..] == b;
  }

  // ---------------------------------------------------------------------------
  // Decimal formatting (fmt's %d and %0Nd) and its inverse
  // ---------------------------------------------------------------------------

  predicate IsDigit(c: char) { '0' <= c <= '9' }

  predicate AllDigits(s: string) {
    forall i :: 0 <= i < |s| ==> IsDigit(s[i])
  }

  function DigitChar(d: nat): (c: char)
    requires d < 10
    ensures IsDigit(c)
  {
    (d + '0' as int) as char
  }

  function DigitValue(c: char): (d: nat)
    requires IsDigit(c)
    ensures d < 10
  {
    c as int - '0' as int
  }

  /** The decimal digits of `n`, without leading zeros. */
  function Digits(n: nat): (s: string)
    ensures |s| > 0 && AllDigits(s)
  {
    if n < 10 then [DigitChar(n)] else Digits(n / 10) + [DigitChar(n % 10)]
  }

  /** The value of a string of decimal digits (strconv.Atoi on digits only). */
  function ParseNat(s: string): nat
    requires AllDigits(s)
  {
    if s == [] then 0 else ParseNat(s[..|s| - 1]) * 10 + DigitValue(s[|s| - 1])
  }

  function Pow10(k: nat): (p: nat)
    ensures p > 0
  {
    if k == 0 then 1 else 10 * Pow10(k - 1)
  }

  /** `s` left-padded with '0' up to width `w`, as the `0` flag of fmt does. */
  function ZeroPad(s: string, w: int): (r: string)
    ensures |r| == if |s| >= w then |s| else w
    ensures AllDigits(s) ==> AllDigits(r)
    decreases w - |s|
  {
    if |s| >= w then s else ZeroPad(['0'] + s, w)
  }

  /** Padding only puts '0's in front: the padded text ends with `s`. */
  lemma {:induction false} ZeroPadShape(s: string, w: int)
    ensures ZeroPad(s, w)[|ZeroPad(s, w)| - |s|..] == s
    ensures forall i :: 0 <= i < |ZeroPad(s, w)| - |s| ==> ZeroPad(s, w)[i] == '0'
    decreases w - |s|
  {
    if |s| < w {
      var z := ['0'] + s;
      var r := ZeroPad(z, w);
      assert ZeroPad(s, w) == r;
      ZeroPadShape(z, w);
      var k := |r| - |z|;
      assert r[k..] == z;
      assert r[k + 1..] == r[k..][1..] == s;
      forall i | 0 <= i < k + 1 ensures r[i] == '0' {
        if i == k { assert r[i] == r[k..][0]; }
      }
    }
  }

  /** fmt's `%d`. */
  function FormatInt(n: int): string {
    if n < 0 then "-" + Digits(-n) else Digits(n)
  }

  /** fmt's `%0wd`: the sign, when present, counts towards the width. */
  function FormatZeroPadded(n: int, w: nat): string {
    if n < 0 then "-" + ZeroPad(Digits(-n), w - 1) else ZeroPad(Digits(n), w)
  }

  /** The number `%d` output denotes: an optional '-' followed by a non-empty run of
      digits; `None` for any other text. */
  function ParseInt(s: string): Option<int> {
    if |s| > 1 && s[0] == '-' && AllDigits(s[1..]) then Some(-(ParseNat(s[1..]) as int))
    else if |s| > 0 && AllDigits(s) then Some(ParseNat(s))
    else None
  }

  /** `%d` is `%0wd` with no width to fill. */
  lemma FormatIntUnpadded(n: int)
    ensures FormatInt(n) == FormatZeroPadded(n, 0)
  {
  }

  /** `%0wd` output, and so `%d` output, reads back as the number written, sign included,
      and holds only the sign and digits. */
  lemma ParseZeroPadded(n: int, w: nat, c: char)
    requires !IsDigit(c) && c != '-'
    ensures ParseInt(FormatZeroPadded(n, w)) == Some(n)
    ensures Lacks(FormatZeroPadded(n, w), c)
  {
    var r := FormatZeroPadded(n, w);
    if n < 0 {
      var t := ZeroPad(Digits(-n), w - 1);
      ParseZeroPad(Digits(-n), w - 1);
      ParseDigits(-n);
      assert r == "-" + t && r[1..] == t;
      assert forall i :: 1 <= i < |r| ==> r[i] == t[i - 1];
    } else {
      ParseZeroPad(Digits(n), w);
      ParseDigits(n);
      assert IsDigit(r[0]);
    }
  }

  /** `%0wd` never writes less than `%d`. It writes more exactly when `%d` would need
      fewer than `w` characters, that is for `-10^(w-2) < n < 10^(w-1)`, and otherwise
      the very same text. */
  lemma ZeroPadAddsDigits(n: int, w: nat)
    requires w >= 2
    ensures |FormatZeroPadded(n, w)| >= |FormatInt(n)|
    ensures -(Pow10(w - 2) as int) < n < Pow10(w - 1) ==> |FormatZeroPadded(n, w)| > |FormatInt(n)|
    ensures !(-(Pow10(w - 2) as int) < n < Pow10(w - 1)) ==> FormatZeroPadded(n, w) == FormatInt(n)
  {
    if n < 0 {
      if -n < Pow10(w - 2) { DigitsLength(-n, w - 2); } else { DigitsLengthAtLeast(-n, w - 1); }
    } else {
      if n < Pow10(w - 1) { DigitsLength(n, w - 1); } else { DigitsLengthAtLeast(n, w); }
    }
  }

  lemma {:induction false} ParseDigits(n: nat)
    ensures ParseNat(Digits(n)) == n
  {
    var s := Digits(n);
    if n >= 10 {
      assert s[..|s| - 1] == Digits(n / 10);
      ParseDigits(n / 10);
    }
  }

  lemma {:induction false} ParseLeadingZero(s: string)
    requires AllDigits(s)
    ensures ParseNat(['0'] + s) == ParseNat(s)
    decreases |s|
  {
    if s != [] {
      assert (['0'] + s)[..|s|] == ['0'] + s[..|s| - 1];
      ParseLeadingZero(s[..|s| - 1]);
    }
  }

  lemma {:induction false} ParseZeroPad(s: string, w: int)
    requires AllDigits(s)
    ensures ParseNat(ZeroPad(s, w)) == ParseNat(s)
    decreases w - |s|
  {
    if |s| < w {
      ParseZeroPad(['0'] + s, w);
      ParseLeadingZero(s);
    }
  }

  /** The digits of a number below 10^k take at most k characters. */
  lemma {:induction false} DigitsLength(n: nat, k: nat)
    requires n < Pow10(k)
    ensures |Digits(n)| <= k || (n == 0 && k == 0)
  {
    if n >= 10 {
      assert k > 0;
      DigitsLength(n / 10, k - 1);
    }
  }

  /** A number of at least 10^(k-1) needs at least k digits. */
  lemma {:induction false} DigitsLengthAtLeast(n: nat, k: nat)
    requires k > 0 && Pow10(k - 1) <= n
    ensures |Digits(n)| >= k
  {
    if k > 1 {
      DigitsLengthAtLeast(n / 10, k - 1);
    }
  }

  // ---------------------------------------------------------------------------
  // Splitting on a separator character
  // ---------------------------------------------------------------------------

  /** The first index at or after `from` where `c` occurs. */
  function CharIndex(s: string, c: char, from: nat): (r: Option<nat>)
    requires from <= |s|
    ensures r.Some? ==> from <= r.value < |s| && s[r.value] == c
    ensures r.Some? ==> forall j :: from <= j < r.value ==> s[j] != c
    ensures r.None? ==> forall j :: from <= j < |s| ==> s[j] != c
    decreases |s| - from
  {
    if from == |s| then None
    else if s[from] == c then Some(from)
    else CharIndex(s, c, from + 1)
  }

  /** `s` cut at every occurrence of `sep`; the pieces do not contain `sep`. */
  function Split(s: string, sep: char): (parts: seq<string>)
    ensures |parts| > 0
    ensures forall i :: 0 <= i < |parts| ==> Lacks(parts[i], sep)
    decreases |s|
  {
    match CharIndex(s, sep, 0)
    case None => [s]
    case Some(i) => [s[..i]] + Split(s[i + 1..], sep)
  }

  lemma SplitNoSep(s: string, sep: char)
    requires Lacks(s, sep)
    ensures Split(s, sep) == [s]
  {
  }

  lemma SplitCons(a: string, sep: char, b: string)
    requires Lacks(a, sep)
    ensures Split(a + [sep] + b, sep) == [a] + Split(b, sep)
  {
    var s := a + [sep] + b;
    assert s[|a|] == sep;
    assert forall j :: 0 <= j < |a| ==> s[j] == a[j];
    assert s[..|a|] == a;
    assert s[|a| + 1..] == b;
  }
}

=== FILE: wrappers.dfy ===
/** Failure-carrying result types used across the model. */
module Wrappers {

  /** A value that may be absent: a Go `(T, error)` pair whose error is not inspected,
      or a lookup that can miss. */
  datatype Option<+T> = None | Some(value: T)

  /** A value or an error: a Go `(T, error)` pair whose error is reported. */
  datatype Result<+R, +E> = Success(value: R) | Failure(error: E)

  /** The values present in `ds`, in order. */
  function Present<T>(ds: seq<Option<T>>): (out: seq<T>)
    ensures |out| <= |ds|
    decreases |ds|
  {
    if ds == [] then [] else Some0(ds[0]) + Present(ds[1..])
  }

  /** An optional value as a sequence of zero or one values. */
  function Some0<T>(d: Option<T>): (out: seq<T>)
    ensures d.None? ==> out == []
    ensures d.Some? ==> out == [d.value]
  {
    match d
    case None => []
    case Some(x) => [x]
  }

  /** Every present value is kept. */
  lemma {:induction false} PresentHas<T>(ds: seq<Option<T>>, j: nat)
    requires j < |ds| && ds[j].Some?
    ensures ds[j].value in Present(ds)
    decreases |ds|
  {
    if j > 0 {
      PresentHas(ds[1..], j - 1);
      assert ds[1..][j - 1] == ds[j];
    }
  }

  /** Every kept value was present. */
  lemma {:induction false} PresentFrom<T>(ds: seq<Option<T>>, k: nat)
    requires k < |Present(ds)|
    ensures exists j :: 0 <= j < |ds| && ds[j] == Some(Present(ds)[k])
    decreases |ds|
  {
    var head, rest := Some0(ds[0]), Present(ds[1..]);
    assert Present(ds) == head + rest;
    if k < |head| {
      assert ds[0] == Some(Present(ds)[k]);
    } else {
      PresentFrom(ds[1..], k - |head|);
      var j :| 0 <= j < |ds[1..]| && ds[1..][j] == Some(rest[k - |head|]);
      assert ds[j + 1] == Some(Present(ds)[k]);
    }
  }

  /** Nothing is dropped when every value is present, and nothing is kept when none is. */
  lemma {:induction false} PresentCount<T>(ds: seq<Option<T>>)
    ensures (forall j :: 0 <= j < |ds| ==> ds[j].Some?) ==> |Present(ds)| == |ds|
    ensures (forall j :: 0 <= j < |ds| ==> ds[j].None?) ==> Present(ds) == []
    decreases |ds|
  {
    if ds != [] {
      PresentCount(ds[1..]);
      assert forall j :: 1 <= j < |ds| ==> ds[1..][j - 1] == ds[j];
    }
  }

  /** Keeping the present values of two runs keeps the first run's, then the second's. */
  lemma {:induction false} PresentAppend<T>(a: seq<Option<T>>, b: seq<Option<T>>)
    ensures Present(a + b) == Present(a) + Present(b)
    decreases |a|
  {
    if a == [] {
      assert a + b == b;
    } else {
      var ab := a + b;
      assert ab[0] == a[0] && ab[1..] == a[1..] + b;
      PresentAppend(a[1..], b);
      var head := Some0(a[0]);
      assert head + (Present(a[1..]) + Present(b)) == (head + Present(a[1..])) + Present(b);
    }
  }
}
